=== FILE: README.md ===
# TouNetCore console: permission engine, session and forms

A Dafny model of the logic in the TouNetCore web console. The console is a
React front end: users register with an invite code, manage a profile and
generate NKeys for applications, and administrators manage users, apps and
invite codes. The model covers:

- **Permission engine** (`Permissions`). Four levels are totally ordered
  by a rank table: `disableduser` = 1, `user` = 2, `trusted` = 3,
  `admin` = 4. On top of that order sit:
  - `hasPermission` and its alias `canAccessApp`;
  - the display name and colour lookups, which fall back to 'Unknown' and 'gray';
  - the accessible-apps filter;
  - the "levels at or below mine, highest first" list.

  Levels arrive as strings: a user's `status` (`admin`/`user`/`disabled`)
  is handed to the badge unchanged. So a level is a datatype with a
  `Raw(name)` case for any other string, and every operation reads a
  level through `Key`, the string the program sees. A rank is an
  `Option<int>`, with `None` standing for the `undefined` a JavaScript
  object yields for a missing key.
- **Permission guard and badge** (`PermissionGuard`). The guard chooses
  between the children and the fallback, which defaults to `null`. The
  badge shows a level's label with the CSS class of its colour.
- **Session** (`AuthContext`). The authentication provider's state has
  five parts:
  - the token in durable storage;
  - the token in component state;
  - the identity query's cached user;
  - that query's error flag;
  - whether an identity fetch is in flight.

  Its transitions are initialisation, `login`, `logout`, the identity
  fetch and its response, and the effect that logs out on a fetch error or
  an expired token. The fetch follows the provider's own query options:
  it is enabled only while a token is present and is not retried. A
  response arrives only for a fetch in flight. Token expiry
  is decided outside the model: it is a parameter `expired: string -> bool`.
- **Forms and requests** (`Validation`, `RegisterPage`, `UserDashboard`,
  `AdminDashboard`):
  - the zod schemas as lists of checks;
  - the request payloads, including PushDeer token normalisation and the
    NKey app-id split and trim;
  - the dashboard counters and defaults;
  - the badge colours of the admin tables.
- **JavaScript behaviour the source relies on** (`JsValues`, `Text`):
  - `a || b` fallbacks on optional strings and numbers (`''` and 0 are falsy);
  - property reads on object literals;
  - `String.prototype.split` with a one-character separator;
  - `trim`. Its whitespace set is a parameter `ws: char -> bool`.

Levels outside the four have no rank. `hasPermission` looks both levels
up in the rank table, an unknown level yields `undefined`, and in
JavaScript `undefined >= n` and `n >= undefined` are both false. So any
comparison involving an unknown level fails: even `admin` does not meet an
unknown requirement, and an unknown level does not meet itself
(`Permissions.UnknownNeverCompares`).

## Model

| member | source | states |
|---|---|---|
| Permissions.Parse | src/types/api.ts:6 | reading a string as a level keeps the string (`Key(Parse(s)) == s`) and yields the `Raw` case exactly for strings outside the four names, such as the backend's `disabled` |
| Permissions.ParseKey | src/lib/permissions.ts:6 | each of the four levels, and every `Raw` string outside them, reads back as itself |
| Permissions.Rank | src/lib/permissions.ts:10-15 | a level has a rank iff its name is one of the four; the ranks are disableduser 1, user 2, trusted 3, admin 4 |
| Permissions.RanksDistinct | src/lib/permissions.ts:10-15 | no two level names share a rank |
| Permissions.RankIsHierarchyPosition | src/lib/permissions.ts:10-15 | each known level sits in the hierarchy list at the position of its rank |
| Permissions.HasPermission | src/lib/permissions.ts:18-20 | permission is only ever granted between two known levels; a known level meets itself; admin meets exactly the known requirements; disableduser is met by every known level |
| Permissions.CanAccessApp | src/lib/permissions.ts:23-25 | an app is only ever open between known levels; an admin opens every app with a known level; a user never opens an admin app |
| Permissions.HasPermissionFollowsHierarchy | src/lib/permissions.ts:18-20 | `hasPermission(a, b)` holds iff both are in the hierarchy disableduser < user < trusted < admin and a is at or above b |
| Permissions.HasPermissionReflexive | src/lib/permissions.ts:18-20 | a level meets itself iff it is one of the four |
| Permissions.HasPermissionTransitive | src/lib/permissions.ts:18-20 | the comparison is transitive |
| Permissions.HasPermissionTotal | src/lib/permissions.ts:18-20 | any two known levels are comparable |
| Permissions.HasPermissionAntisymmetric | src/lib/permissions.ts:18-20 | two levels meeting each other carry the same name |
| Permissions.AdminAndDisabledExtremes | src/lib/permissions.ts:18-20 | admin meets exactly the known requirements; disableduser meets only disableduser |
| Permissions.UnknownNeverCompares | src/lib/permissions.ts:18-25 | with an unknown level on either side, neither `hasPermission` nor `canAccessApp` holds |
| Permissions.CanAccessAppDirection | src/lib/permissions.ts:23-25 | `canAccessApp(u, r)` is `hasPermission(u, r)` with the same argument order: a user cannot open an admin app, while an admin can open a user app |
| Permissions.DisplayName | src/lib/permissions.ts:28-36 | the four labels, and 'Unknown' exactly for values outside the four levels |
| Permissions.DisplayNameDistinct | src/lib/permissions.ts:28-36 | the four levels have four different labels |
| Permissions.DisplayColor | src/lib/permissions.ts:39-47 | purple, blue, green and red for the four levels; 'gray' exactly for any other value; always one of five colours |
| Permissions.Filter | src/lib/permissions.ts:54-56 | `filter` keeps an order-preserving subsequence no longer than the input: exactly the accepted elements, each as often as in the input |
| Permissions.AccessibleApps | src/lib/permissions.ts:50-57 | the accessible apps are the input apps whose required level the user's level meets, in input order, with multiplicities kept, never more than the input |
| Permissions.EntriesAtOrBelow | src/lib/permissions.ts:61-64 | the table entries kept by the filter are exactly the levels whose rank is at most the current one (none when the current rank is undefined) |
| Permissions.InsertDesc | src/lib/permissions.ts:65 | one insertion step of the descending sort: the result is sorted and a permutation of the input plus the new element |
| Permissions.SortDesc | src/lib/permissions.ts:65 | the descending sort returns a sorted permutation of its input |
| Permissions.SortAscendingIsReverse | src/lib/permissions.ts:62-65 | sorting a strictly ascending list in descending order reverses it |
| Permissions.EntriesArePrefix | src/lib/permissions.ts:62-64 | for a rank p, the table entries ranked at most p are the first p levels of the hierarchy, in table order |
| Permissions.AvailableLevels | src/lib/permissions.ts:60-66 | at most four levels, highest rank first; none for an unknown current level |
| Permissions.AvailableIsReversedPrefix | src/lib/permissions.ts:60-66 | for a known level of rank p, the available levels are the first p levels of the hierarchy, reversed |
| Permissions.AvailableMembers | src/lib/permissions.ts:60-66 | a level is available iff it is one of the four and the current level meets it |
| Permissions.AvailableDescending | src/lib/permissions.ts:65 | the available levels are strictly descending by rank and there are as many as the current rank |
| Permissions.AvailableHead | src/lib/permissions.ts:60-66 | the list starts with the current level itself |
| Permissions.AvailableUnknown | src/lib/permissions.ts:61-63 | an unknown current level gets an empty list |
| Permissions.AvailableLevelsSpec | src/lib/permissions.ts:60-66 | all of the above at once: exactly the dominated levels, strictly descending, length equal to the rank (0 when unknown), headed by the current level |
| Permissions.AvailableTrusted | src/lib/permissions.ts:60-66 | any value reading 'trusted' gets `[trusted, user, disableduser]` |
| PermissionGuard.Guard | src/components/PermissionGuard.tsx:15-24 | the children when the user's level meets the requirement, otherwise the fallback |
| PermissionGuard.GuardWithoutFallback | src/components/PermissionGuard.tsx:19-23 | with the default `null` fallback the guard renders nothing exactly when permission is denied |
| PermissionGuard.GuardMonotone | src/components/PermissionGuard.tsx:21-23 | a guard that denies at some requirement also denies at every higher one and at every unknown one |
| PermissionGuard.Badge | src/components/PermissionGuard.tsx:34-54 | the badge text is the level's display name; its class holds the class looked up for the level's colour followed by the caller's class |
| PermissionGuard.EveryColorHasClass | src/components/PermissionGuard.tsx:38-50 | every colour the engine returns, gray included, has a class entry, so no badge gets an undefined class |
| PermissionGuard.ColorClassEntries | src/components/PermissionGuard.tsx:41-47 | the class entry of each of the five colours |
| PermissionGuard.UnknownBadge | src/components/PermissionGuard.tsx:38-51 | a level outside the four shows 'Unknown' with the gray class |
| AuthContext.FetchEnabled | src/contexts/AuthContext.tsx:31 | the identity query runs only with a non-empty token, never with none or '' |
| AuthContext.IsAuthenticated | src/contexts/AuthContext.tsx:51 | authenticated implies the query is enabled and a user is cached; with a user cached, authenticated is exactly having a usable token |
| AuthContext.IsAdmin | src/contexts/AuthContext.tsx:52 | admin exactly when a cached user's status reads as the engine's admin level |
| AuthContext.Init | src/contexts/AuthContext.tsx:20-33 | the initial token is the stored one iff it is present, non-empty and unexpired, else none; the query cache starts empty and nothing is in flight, so no user, no error, not authenticated and not admin |
| AuthContext.Login | src/contexts/AuthContext.tsx:41-44 | storage and state both hold the new token; the cached identity is untouched; the fetch is enabled iff the token is non-empty |
| AuthContext.Logout | src/contexts/AuthContext.tsx:46-49 | storage and state lose the token, so the session is neither authenticated nor fetching; the cached identity is untouched |
| AuthContext.StartFetch | src/contexts/AuthContext.tsx:25-32 | an enabled query with its attempt unspent starts a fetch, counting one attempt and putting it in flight; otherwise nothing happens; tokens and cache are never touched |
| AuthContext.FetchSucceeded | src/contexts/AuthContext.tsx:25-30 | the fetch in flight resolves: the user is cached, the error clears and nothing is in flight any more; with nothing in flight no response arrives and nothing changes |
| AuthContext.FetchFailed | src/contexts/AuthContext.tsx:25-32 | the fetch in flight fails: the error is set and the previous data kept; with nothing in flight nothing changes |
| AuthContext.Effect | src/contexts/AuthContext.tsx:35-39 | the effect either leaves the session alone or logs out; afterwards no usable token is in error or expired; with no error and no expired token it changes nothing |
| AuthContext.FailureLogsOut | src/contexts/AuthContext.tsx:35-39 | a fetch error or an expired token ends the session at the next effect |
| AuthContext.EffectIdempotent | src/contexts/AuthContext.tsx:35-39 | running the effect twice is running it once |
| AuthContext.LogoutIdempotent | src/contexts/AuthContext.tsx:46-49 | logging out twice is logging out once |
| AuthContext.InitHasFetchBudget | src/contexts/AuthContext.tsx:20-33 | the initial session respects the fetch budget (no attempt made) |
| AuthContext.StepKeepsFetchBudget | src/contexts/AuthContext.tsx:31-32 | every transition keeps the budget: at most one attempt while enabled, none while disabled |
| AuthContext.RunKeepsFetchBudget | src/contexts/AuthContext.tsx:31-32 | any sequence of transitions keeps the budget |
| AuthContext.NoRetry | src/contexts/AuthContext.tsx:32 | once the attempt is spent, neither the failure nor anything else starts another fetch |
| AuthContext.LoginThenFetch | src/contexts/AuthContext.tsx:35-52 | logging in with a usable token, the effect the token change triggers, the fetch the query then issues and its response: from a session without a leftover error whose query had not fetched yet, a fetch is issued and counted, and its user arrives, authenticating with that token and user, admin iff the status is 'admin'; if the query was enabled and had already fetched, the unchanged query key issues no fetch and the cached user stays; with a leftover error the session ends up logged out |
| AuthContext.NoLoginNoUser | src/contexts/AuthContext.tsx:25-33 | with the query disabled, nothing in flight and no cached user, no sequence of events without a login ever caches a user |
| AuthContext.StaleErrorUndoesLogin | src/contexts/AuthContext.tsx:35-44 | an error still cached from an earlier failed fetch makes the effect log a fresh login out at once, and the disabled query starts no fetch |
| AuthContext.EmptyTokenIsNoToken | src/contexts/AuthContext.tsx:31-51 | logging in with '' neither authenticates nor enables the fetch |
| AuthContext.AdminSurvivesLogout | src/contexts/AuthContext.tsx:46-52 | isAdmin reads only the cached user: after logout it is unchanged, though nobody is authenticated |
| AuthContext.IsAdminReadsOnlyUser | src/contexts/AuthContext.tsx:52 | isAdmin ignores the token, is a string comparison equivalent to the status parsing as admin, and such a user meets every known requirement |
| AuthContext.StatusGrantsItself | src/types/api.ts:6 | a user's status meets itself iff it names a level; the backend's 'disabled' does not |
| JsValues.OrString | src/pages/RegisterPage.tsx:43 | `v \|\| fallback` is the value exactly when it is present and non-empty, the fallback otherwise; never empty with a non-empty fallback |
| JsValues.OrNumber | src/components/AdminDashboard.tsx:150 | `n \|\| fallback` is the number exactly when it is present and non-zero, the fallback otherwise |
| JsValues.OrZeroIsGetOr | src/components/AdminDashboard.tsx:150 | with fallback 0 it is the number or 0 when absent |
| JsValues.LengthOrZero | src/components/UserDashboard.tsx:116 | `xs?.length \|\| 0` is the length, 0 when absent |
| JsValues.Get | src/lib/permissions.ts:35 | an object-literal read is undefined iff no entry has the key, else the value of an entry with that key |
| Text.Split | src/components/UserDashboard.tsx:86 | `split(',')` gives one piece more than there are commas, no piece contains a comma, and joining the pieces with commas gives the input back |
| Text.SplitJoin | src/components/UserDashboard.tsx:86 | splitting undoes joining pieces that contain no separator |
| Text.Trim | src/components/UserDashboard.tsx:86 | `trim` returns a contiguous piece of the input with no whitespace at either end, everything cut away being whitespace |
| Text.NoSeparatorSplit | src/components/UserDashboard.tsx:86 | text without a comma splits into itself alone |
| Text.TrimFixesTrimmed | src/components/UserDashboard.tsx:86 | text with no whitespace at either end is left unchanged by `trim` |
| Text.TrimIdempotent | src/components/UserDashboard.tsx:86 | trimming twice is trimming once |
| Validation.CheckField | src/pages/RegisterPage.tsx:13-19 | one field against its check: no issue iff the value passes, otherwise exactly the field is flagged |
| Validation.FlaggedConcat | src/pages/RegisterPage.tsx:13-19 | the fields flagged by a schema are the union of those flagged by its parts |
| Validation.FlaggedNamesIssues | src/pages/RegisterPage.tsx:13-19 | a field is flagged iff some issue names it |
| RegisterPage.ValidateRegister | src/pages/RegisterPage.tsx:13-19 | no issues iff username ≥ 3, password ≥ 6, phone ≥ 10 characters and a non-empty invite code; the flagged fields are exactly those breaking their rule |
| RegisterPage.RegisterFlags | src/pages/RegisterPage.tsx:13-19 | each field is flagged iff it breaks its own rule; the optional PushDeer token never is |
| RegisterPage.RegisterPayload | src/pages/RegisterPage.tsx:50-53 | the request carries the form's fields, with a missing or empty PushDeer token sent as '' |
| RegisterPage.PayloadValidatesAlike | src/pages/RegisterPage.tsx:50-53 | the normalised request, read back as a form, validates exactly as the original form |
| RegisterPage.Submit | src/pages/RegisterPage.tsx:47-54 | a request is issued iff the form is valid, and then with both messages cleared; an invalid form changes nothing |
| RegisterPage.OnError | src/pages/RegisterPage.tsx:42-44 | the error shown is the server's message when present and non-empty, else 'Registration failed'; never empty |
| RegisterPage.OnSuccess | src/pages/RegisterPage.tsx:38-41 | success sets a non-empty success message and leaves the error |
| RegisterPage.MessagesAfterSubmit | src/pages/RegisterPage.tsx:38-54 | after a valid submit, a failure shows only the error and a success only the success message |
| UserDashboard.ValidateProfile | src/components/UserDashboard.tsx:15-18 | the profile form is valid iff the phone has at least 10 characters; only the phone can be flagged |
| UserDashboard.ProfileRequest | src/components/UserDashboard.tsx:79-81 | the profile update sends the phone and the optional PushDeer token as entered, without the normalisation registration applies; its meaning is stated by `UserDashboard.ProfileRequestMeaning` |
| UserDashboard.ProfileRequestMeaning | src/components/UserDashboard.tsx:15-18 | the profile request reads back as the form, so its phone is valid exactly when the form is; the phone is judged as registration judges it; an absent PushDeer token stays absent here, where registration sends '' |
| UserDashboard.ValidateNKey | src/components/UserDashboard.tsx:20-23 | the NKey form is valid iff username and app ids are both non-empty, each flagged exactly when empty |
| UserDashboard.AppIds | src/components/UserDashboard.tsx:86 | one id per comma-separated piece, in order: as many as commas plus one, each the trimmed piece, none with surrounding whitespace |
| UserDashboard.NKeyPayload | src/components/UserDashboard.tsx:83-88 | the request's username is the singleton list of the form's username, and its app ids are the split and trimmed input |
| UserDashboard.AppIdsRoundTrip | src/components/UserDashboard.tsx:86 | ids without commas or surrounding whitespace, typed joined by commas, come back unchanged |
| UserDashboard.EmptyPiecesKept | src/components/UserDashboard.tsx:86 | empty pieces are not removed: "a,,b" gives three ids, the middle one empty |
| UserDashboard.BadgeLevel | src/components/UserDashboard.tsx:120 | the badge shows the loaded user's status as is, and 'disableduser' while no user is loaded or the status is empty |
| UserDashboard.BadgeBeforeLoad | src/components/UserDashboard.tsx:120 | before the user loads the badge reads 'Disabled User' in red |
| UserDashboard.DisabledStatusBadge | src/components/UserDashboard.tsx:120 | a user with the backend status 'disabled' gets the 'Unknown' badge |
| UserDashboard.ProfileDefaults | src/components/UserDashboard.tsx:51-54 | the profile form starts from the loaded user's phone and token, '' when absent |
| UserDashboard.NKeyDefaultUsername | src/components/UserDashboard.tsx:60 | the NKey form starts from the loaded user's username, '' when absent |
| AdminDashboard.ValidateCreateUser | src/components/AdminDashboard.tsx:24-30 | no issues iff username ≥ 3, password ≥ 6, phone ≥ 10 and status is admin, user or disabled; status flagged iff outside those |
| AdminDashboard.CreateUserPayload | src/components/AdminDashboard.tsx:132-137 | every field passes through, with a missing or empty PushDeer token sent as ''; `AdminDashboard.CreateUserPayloadValidatesAlike` is its partner |
| AdminDashboard.CreateUserPayloadValidatesAlike | src/components/AdminDashboard.tsx:24-30 | the create-user request, read back as a form, validates exactly as the original form, and its status reads as the same level |
| AdminDashboard.ValidateCreateApp | src/components/AdminDashboard.tsx:32-38 | no issues iff app id, name and description are non-empty and the level is admin or user |
| AdminDashboard.CreateAppPayload | src/components/AdminDashboard.tsx:139-141 | the create-app request carries the form's fields unchanged; `AdminDashboard.CreatedAppLevelIsKnown` states that a validated request demands a level the engine ranks |
| AdminDashboard.CreatedAppLevelIsKnown | src/components/AdminDashboard.tsx:32-38 | an app the form lets through demands 'admin' or 'user', a level the engine ranks, carried to the request unchanged, so an admin can open it |
| AdminDashboard.DefaultsAreAdmissible | src/components/AdminDashboard.tsx:78-88 | the default status and app level pass their enum checks, and the default app level is the engine's 'user' |
| AdminDashboard.NewAppDefaults | src/components/AdminDashboard.tsx:82-88 | with its defaults left alone the create-app form validates exactly when its three text fields are filled, and creates an active app open to every user at 'user' or above |
| AdminDashboard.CountUnused | src/components/AdminDashboard.tsx:181 | the unused count is at most the number of codes, equal to it iff no code is used, 0 iff every code is used |
| AdminDashboard.CountUnusedConcat | src/components/AdminDashboard.tsx:181 | counting over two lists joined is adding their counts |
| AdminDashboard.UnusedCodes | src/components/AdminDashboard.tsx:181 | the unused-codes counter is the count of unused codes, 0 with no data |
| AdminDashboard.UnusedAtMostAll | src/components/AdminDashboard.tsx:176-181 | the unused-codes counter never exceeds the invite-codes counter, and equals it only when no code is used |
| AdminDashboard.ActiveAppsCountsAll | src/components/AdminDashboard.tsx:172 | the 'Active Apps' counter counts every app: adding any app raises it by one, and it is active plus inactive apps |
| AdminDashboard.TotalUsers | src/components/AdminDashboard.tsx:150 | the user total is the page's total, 0 with no data |
| AdminDashboard.Users | src/components/AdminDashboard.tsx:149 | the listed users are the page's items, none with no data; `AdminDashboard.UserListAndTotal` relates them to the 'Total Users' card |
| AdminDashboard.UserListAndTotal | src/components/AdminDashboard.tsx:149-150 | the user list and the 'Total Users' card read the same page: both empty with no data, every listed user an item of the page, and the card equal to the row count when the page's total is its item count |
| AdminDashboard.StatusBadgeClass | src/components/AdminDashboard.tsx:313-316 | purple iff the status is 'admin', green iff 'user', red for every other value |
| AdminDashboard.StatusBadgeAgreesWithPermissionBadge | src/components/AdminDashboard.tsx:313-316 | for 'admin' and 'user' the table badge has the permission badge's class; for 'disabled' the table shows red where the permission badge shows gray |
| AdminDashboard.AppLevelBadgeClass | src/components/AdminDashboard.tsx:442-443 | purple iff the app requires 'admin', blue otherwise; `AdminDashboard.AppLevelBadgeAgainstPermissionBadge` compares it with the permission badge |
| AdminDashboard.AppLevelBadgeAgainstPermissionBadge | src/components/AdminDashboard.tsx:442-443 | the app card's level badge matches the permission badge's class for 'admin' and 'trusted', but is blue where the permission badge is green for 'user', red for 'disableduser' and gray for unknown levels |
| AdminDashboard.CodeRow | src/components/AdminDashboard.tsx:504-511 | 'Used' in red iff the code is used, else 'Available' in green; the used-by cell is never empty: the user when present and non-empty, '-' otherwise |
| AdminDashboard.AvailableRowsMatchCounter | src/components/AdminDashboard.tsx:180-182 | the invite table shows exactly as many 'Available' rows as the unused-codes counter counts |

## Left out

- `src/lib/api.ts` is not part of this model: the HTTP client, its header interceptor, the 401 redirect and the `localStorage`/`window.location` I/O. Requests are modelled as the values handed to it.
- Query-library internals are not modelled: caching policy, refetch on focus or mount, loading flags, error clearing on refetch, and cache invalidation after mutations. The identity query is modelled only as far as the session needs: enabled, one attempt, result cached under a key that does not depend on the token.
- Timers (the copy-confirmation reset and the navigation two seconds after registering), navigation itself, JSX layout and styling, and the UI components are not modelled.
- `isTokenExpired`, `formatDate` and `copyToClipboard` live in `src/lib/utils`, which is not part of this model; expiry is the parameter `expired`, and the other two have no role in the modelled logic.
- `src/pages/LoginPage.tsx` is not modelled: its only effect on the session is `login(token)`, modelled in `AuthContext.Login`.
- The debugging and error-boundary components and the build configuration have no logic to model.
- Stale-response sequencing for identity fetches is not modelled, because the code has none: a response is cached whenever it arrives.
- Object-literal reads with prototype keys (a status of `"toString"` would find an inherited function) are not modelled: `JsValues.Get` sees only the literal's own entries.
- Validation.CheckField: zod's "Required" issue for an absent field and the enum error messages are not reproduced; an issue records the field and the check it failed, not the message text.
- Validation.Passes: `.min(n)` counts characters in the model, whereas JavaScript counts UTF-16 code units; this reading is shared by every schema (`RegisterPage.ValidateRegister`, `UserDashboard.ValidateProfile`, `UserDashboard.ValidateNKey`, `AdminDashboard.ValidateCreateUser`, `AdminDashboard.ValidateCreateApp`).
- Text.Trim: the whitespace set is a parameter rather than JavaScript's fixed set of whitespace and line terminators.
- AuthContext.LoginThenFetch: the error flag clears only when a fetch resolves. Whether the query library already drops a leftover error when the re-enabled query starts fetching depends on its version and on whether data is cached, which are not part of this model. So authentication after login is promised only from a session without a leftover error; `AuthContext.StaleErrorUndoesLogin` states what the model does otherwise.
- AuthContext.StartFetch: the fetch budget (one attempt per enablement, `AuthContext.RunKeepsFetchBudget`) covers the provider's observer only. The user dashboard (src/components/UserDashboard.tsx:41-47) observes the same `['user','me']` entry with no `enabled` option and the library's default retries, and the profile update invalidates it (src/components/UserDashboard.tsx:67). Those fetches also write the user and error the session reads, and they are not modelled.
- AuthContext.Login: a login while the query is already enabled changes neither the query key nor `enabled`, so the model issues no new fetch and keeps the spent attempt; the attempt is reset only when the query turns from disabled to enabled. Refetches the library triggers by other means (mount, focus) are not modelled.

=== FILE: admin_dashboard.dfy ===
/**
 * The admin dashboard: the create-user and create-app schemas and their
 * defaults, the payloads the handlers send, the overview counters, and
 * the badge colours of the user, app and invite-code tables.
 */
module AdminDashboard {
  import opened Wrappers
  import opened JsValues
  import opened ApiTypes
  import opened Validation
  import Permissions
  import PermissionGuard

  datatype CreateUserForm = CreateUserForm(
    username: string,
    password: string,
    phone: string,
    pushdeerToken: Option<string>,
    status: string)

  /** The statuses the create-user schema admits (the backend's vocabulary, not the engine's). */
  const StatusRule := OneOf(["admin", "user", "disabled"])

  /** `createUserSchema`. */
  function ValidateCreateUser(f: CreateUserForm): (issues: seq<Issue>)
    ensures issues == [] <==>
      |f.username| >= 3 && |f.password| >= 6 && |f.phone| >= 10
      && (f.status == "admin" || f.status == "user" || f.status == "disabled")
    ensures "status" in Flagged(issues) <==> f.status !in ["admin", "user", "disabled"]
    ensures "pushdeer_token" !in Flagged(issues)
  {
    var a := CheckField("username", f.username, UsernameRule);
    var b := CheckField("password", f.password, PasswordRule);
    var c := CheckField("phone", f.phone, PhoneRule);
    var d := CheckField("status", f.status, StatusRule);
    FlaggedConcat(a, b);
    FlaggedConcat(a + b, c);
    FlaggedConcat(a + b + c, d);
    a + b + c + d
  }

  /** `onCreateUser`: every field as entered, with a missing or empty PushDeer token sent as ''. */
  function CreateUserPayload(f: CreateUserForm): (r: CreateUserRequest)
    ensures r.username == f.username && r.password == f.password && r.phone == f.phone
    ensures r.status == f.status
    ensures r.pushdeerToken == f.pushdeerToken.GetOr("")
  {
    CreateUserRequest(f.username, f.password, f.status, f.phone, OrString(f.pushdeerToken, ""))
  }

  /**
   * Reading a create-user request back as a form gives a form that validates
   * exactly as the original did, and whose status the engine reads the same
   * way: the normalised PushDeer token is never checked.
   */
  lemma CreateUserPayloadValidatesAlike(f: CreateUserForm)
    ensures var r := CreateUserPayload(f);
      ValidateCreateUser(CreateUserForm(r.username, r.password, r.phone, Some(r.pushdeerToken), r.status))
        == ValidateCreateUser(f)
    ensures Permissions.Parse(CreateUserPayload(f).status) == Permissions.Parse(f.status)
  {
  }

  datatype CreateAppForm = CreateAppForm(
    appId: string,
    name: string,
    description: string,
    requiredLevel: string,
    isActive: bool)

  const AppIdRule := MinLength(1, "App ID is required")
  const NameRule := MinLength(1, "Name is required")
  const DescriptionRule := MinLength(1, "Description is required")
  /** The levels an app can demand from the form. */
  const AppLevelRule := OneOf(["admin", "user"])

  /** `createAppSchema`. */
  function ValidateCreateApp(f: CreateAppForm): (issues: seq<Issue>)
    ensures issues == [] <==>
      f.appId != "" && f.name != "" && f.description != ""
      && (f.requiredLevel == "admin" || f.requiredLevel == "user")
    ensures "required_permission_level" in Flagged(issues) <==> f.requiredLevel !in ["admin", "user"]
  {
    var a := CheckField("app_id", f.appId, AppIdRule);
    var b := CheckField("name", f.name, NameRule);
    var c := CheckField("description", f.description, DescriptionRule);
    var d := CheckField("required_permission_level", f.requiredLevel, AppLevelRule);
    FlaggedConcat(a, b);
    FlaggedConcat(a + b, c);
    FlaggedConcat(a + b + c, d);
    a + b + c + d
  }

  /** `onCreateApp` sends the form unchanged. */
  function CreateAppPayload(f: CreateAppForm): (r: CreateAppRequest)
    ensures r.appId == f.appId && r.name == f.name && r.description == f.description
    ensures r.requiredLevel == f.requiredLevel && r.isActive == f.isActive
  {
    CreateAppRequest(f.appId, f.name, f.description, f.requiredLevel, f.isActive)
  }

  /**
   * An app the form lets through demands a level the permission engine
   * ranks, 'admin' or 'user', carried to the request unchanged; so an
   * admin can open every app created here.
   */
  lemma CreatedAppLevelIsKnown(f: CreateAppForm, u: Permissions.Level)
    requires ValidateCreateApp(f) == []
    ensures var level := Permissions.Parse(CreateAppPayload(f).requiredLevel);
      Permissions.IsKnown(level) && Permissions.Key(level) == f.requiredLevel
      && (Permissions.Key(u) == "admin" ==> Permissions.CanAccessApp(u, level))
  {
  }


  const DefaultStatus := "user"
  const DefaultAppLevel := "user"
  const DefaultAppActive := true

  /**
   * The defaults pass their own enum checks, and the default app level is a
   * level the engine knows, met by every user at 'user' or above.
   */
  lemma DefaultsAreAdmissible(l: Permissions.Level)
    ensures Passes(DefaultStatus, StatusRule) && Passes(DefaultAppLevel, AppLevelRule)
    ensures Permissions.IsKnown(Permissions.Parse(DefaultAppLevel))
    ensures Permissions.HasPermission(l, Permissions.Parse(DefaultAppLevel)) <==>
      Permissions.HasPermission(l, Permissions.User)
  {
  }

  /** The create-app form as it opens, once its three text fields are filled in. */
  function NewAppForm(appId: string, name: string, description: string): CreateAppForm {
    CreateAppForm(appId, name, description, DefaultAppLevel, DefaultAppActive)
  }

  /**
   * Submitting the form with its defaults left alone: it validates exactly
   * when the three text fields are filled in, and creates an active app
   * open to every user at 'user' or above.
   */
  lemma NewAppDefaults(appId: string, name: string, description: string, l: Permissions.Level)
    ensures ValidateCreateApp(NewAppForm(appId, name, description)) == [] <==>
      appId != "" && name != "" && description != ""
    ensures CreateAppPayload(NewAppForm(appId, name, description)).isActive
    ensures Permissions.CanAccessApp(l, Permissions.Parse(CreateAppPayload(NewAppForm(appId, name, description)).requiredLevel))
      <==> Permissions.HasPermission(l, Permissions.User)
  {
  }

  /** The number of codes not yet used. */
  function CountUnused(codes: seq<InviteCode>): (n: nat)
    ensures n <= |codes|
    ensures n == |codes| <==> forall i :: 0 <= i < |codes| ==> !codes[i].isUsed
    ensures n == 0 <==> forall i :: 0 <= i < |codes| ==> codes[i].isUsed
  {
    if |codes| == 0 then 0
    else (if codes[0].isUsed then 0 else 1) + CountUnused(codes[1..])
  }

  /** Counting over a concatenation adds the counts of the parts. */
  lemma {:induction false} CountUnusedConcat(a: seq<InviteCode>, b: seq<InviteCode>)
    ensures CountUnused(a + b) == CountUnused(a) + CountUnused(b)
    decreases |a|
  {
    if |a| == 0 {
      assert a + b == b;
    } else {
      CountUnusedConcat(a[1..], b);
      assert (a + b)[0] == a[0];
      assert (a + b)[1..] == a[1..] + b;
    }
  }

  /** `inviteCodes?.filter(code => !code.is_used).length || 0`. */
  function UnusedCodes(codes: Option<seq<InviteCode>>): (n: nat)
    ensures codes.None? ==> n == 0
    ensures codes.Some? ==> n == CountUnused(codes.value) && n <= |codes.value|
  {
    var len := if codes.Some? then Some(CountUnused(codes.value)) else None;
    OrNumber(len, 0)
  }

  /** The unused-codes counter never exceeds the invite-codes counter `inviteCodes?.length || 0`. */
  lemma UnusedAtMostAll(codes: Option<seq<InviteCode>>)
    ensures UnusedCodes(codes) <= LengthOrZero(codes)
    ensures codes.Some? && UnusedCodes(codes) == LengthOrZero(codes) ==>
      forall i :: 0 <= i < |codes.value| ==> !codes.value[i].isUsed
  {
  }

  predicate IsActive(a: App) { a.isActive }
  predicate IsInactive(a: App) { !a.isActive }

  /**
   * The 'Active Apps' counter is `apps?.length || 0`: it counts every app,
   * so an inactive app raises it as much as an active one.
   */
  lemma ActiveAppsCountsAll(apps: seq<App>, app: App)
    ensures LengthOrZero(Some(apps + [app])) == LengthOrZero(Some(apps)) + 1
    ensures LengthOrZero(Some(apps)) == |Permissions.Filter(apps, IsActive)|
      + |Permissions.Filter(apps, IsInactive)|
  {
    FilterSplits(apps);
  }

  lemma {:induction false} FilterSplits(apps: seq<App>)
    ensures |apps| == |Permissions.Filter(apps, IsActive)|
      + |Permissions.Filter(apps, IsInactive)|
  {
    if |apps| > 0 {
      FilterSplits(apps[1..]);
    }
  }

  /** `usersData?.total || 0`. */
  function TotalUsers(page: Option<Page<User>>): (n: int)
    ensures page.None? ==> n == 0
    ensures page.Some? ==> n == page.value.total
  {
    var total := if page.Some? then Some(page.value.total) else None;
    OrNumber(total, 0)
  }

  /** `usersData?.items || []`. */
  function Users(page: Option<Page<User>>): (users: seq<User>)
    ensures page.None? ==> users == []
    ensures page.Some? ==> users == page.value.items
  {
    if page.Some? then page.value.items else []
  }

  /**
   * The user table and the 'Total Users' card read the same page: with no
   * data both are empty, every listed user is an item of the page, and the
   * card shows the row count whenever the page's total is its item count.
   */
  lemma UserListAndTotal(page: Option<Page<User>>)
    ensures page.None? ==> Users(page) == [] && TotalUsers(page) == 0
    ensures forall u :: u in Users(page) ==> page.Some? && u in page.value.items
    ensures page.Some? && page.value.total == |page.value.items| ==>
      TotalUsers(page) == LengthOrZero(Some(Users(page)))
  {
  }

  /** The status badge in the user table: purple for 'admin', green for 'user', red for anything else. */
  function StatusBadgeClass(status: string): (cls: string)
    ensures cls == PermissionGuard.PurpleClass <==> status == "admin"
    ensures cls == PermissionGuard.GreenClass <==> status == "user"
    ensures cls == PermissionGuard.RedClass <==> status != "admin" && status != "user"
  {
    if status == "admin" then PermissionGuard.PurpleClass
    else if status == "user" then PermissionGuard.GreenClass
    else PermissionGuard.RedClass
  }

  /**
   * The table's status badge agrees with the permission badge's colour for
   * 'admin' and 'user'; for 'disabled' the table shows red where the
   * permission badge, which does not know the status, shows gray.
   */
  lemma StatusBadgeAgreesWithPermissionBadge(status: string)
    requires status == "admin" || status == "user" || status == "disabled"
    ensures status != "disabled" ==>
      Get(PermissionGuard.ColorClasses, Permissions.DisplayColor(Permissions.Parse(status)))
        == Some(StatusBadgeClass(status))
    ensures status == "disabled" ==>
      StatusBadgeClass(status) == PermissionGuard.RedClass
      && Permissions.DisplayColor(Permissions.Parse(status)) == "gray"
  {
    PermissionGuard.ColorClassEntries();
    var l := Permissions.Parse(status);
    assert Permissions.Key(l) == status;
  }

  /** The required-level badge in the app cards: purple for 'admin', blue for anything else. */
  function AppLevelBadgeClass(level: string): (cls: string)
    ensures cls == PermissionGuard.PurpleClass <==> level == "admin"
    ensures cls == PermissionGuard.BlueClass <==> level != "admin"
  {
    if level == "admin" then PermissionGuard.PurpleClass else PermissionGuard.BlueClass
  }

  /**
   * The app card's level badge against the permission badge for the same
   * level: the classes agree for 'admin' (purple) and 'trusted' (blue); a
   * 'user' app is blue where the permission badge is green, a
   * 'disableduser' app blue where it is red, and an unknown level blue
   * where it is gray.
   */
  lemma AppLevelBadgeAgainstPermissionBadge(level: string)
    ensures level == "admin" || level == "trusted" ==>
      Get(PermissionGuard.ColorClasses, Permissions.DisplayColor(Permissions.Parse(level)))
        == Some(AppLevelBadgeClass(level))
    ensures level == "user" ==>
      AppLevelBadgeClass(level) == PermissionGuard.BlueClass
      && Permissions.DisplayColor(Permissions.Parse(level)) == "green"
    ensures level == "disableduser" ==>
      AppLevelBadgeClass(level) == PermissionGuard.BlueClass
      && Permissions.DisplayColor(Permissions.Parse(level)) == "red"
    ensures !Permissions.IsKnown(Permissions.Parse(level)) ==>
      AppLevelBadgeClass(level) == PermissionGuard.BlueClass
      && Permissions.DisplayColor(Permissions.Parse(level)) == "gray"
  {
    PermissionGuard.ColorClassEntries();
    var l := Permissions.Parse(level);
    assert Permissions.Key(l) == level;
  }

  datatype CodeBadge = CodeBadge(text: string, cssClass: string)

  /** An invite code's row: 'Used' in red or 'Available' in green, and who used it, '-' when nobody. */
  function CodeRow(code: InviteCode): (r: (CodeBadge, string))
    ensures r.0.text == "Used" <==> code.isUsed
    ensures r.0.cssClass == PermissionGuard.RedClass <==> code.isUsed
    ensures !code.isUsed ==> r.0 == CodeBadge("Available", PermissionGuard.GreenClass)
    ensures r.1 != ""
    ensures Truthy(code.usedBy) ==> r.1 == code.usedBy.value
    ensures !Truthy(code.usedBy) ==> r.1 == "-"
  {
    var badge := if code.isUsed then CodeBadge("Used", PermissionGuard.RedClass)
      else CodeBadge("Available", PermissionGuard.GreenClass);
    (badge, OrString(code.usedBy, "-"))
  }

  /** Whether a code's row shows the 'Available' badge. */
  predicate ShowsAvailable(code: InviteCode) {
    CodeRow(code).0.text == "Available"
  }

  /** The invite table shows as many 'Available' rows as the unused-codes counter counts. */
  lemma {:induction false} AvailableRowsMatchCounter(codes: seq<InviteCode>)
    ensures |Permissions.Filter(codes, ShowsAvailable)| == CountUnused(codes)
  {
    if |codes| > 0 {
      AvailableRowsMatchCounter(codes[1..]);
    }
  }
}

=== FILE: api_types.dfy ===
/**
 * The records the console exchanges with its backend. Only the fields the
 * modelled logic reads are kept; timestamps and ids are plain values.
 */
module ApiTypes {
  import opened Wrappers

  /** A user as returned by the identity endpoint; `status` is the raw string the backend sends. */
  datatype User = User(
    id: int,
    username: string,
    phone: string,
    pushdeerToken: string,
    status: string,
    createdAt: string,
    updatedAt: string)

  /** An application; `requiredLevel` is the permission level string it demands. */
  datatype App = App(
    id: int,
    appId: string,
    name: string,
    description: string,
    requiredLevel: string,
    isActive: bool)

  datatype InviteCode = InviteCode(
    id: int,
    code: string,
    isUsed: bool,
    usedBy: Option<string>,
    createdAt: string)

  /** One page of a listing. */
  datatype Page<T> = Page(items: seq<T>, total: int)

  datatype RegisterRequest = RegisterRequest(
    username: string,
    password: string,
    phone: string,
    pushdeerToken: string,
    inviteCode: string)

  datatype CreateUserRequest = CreateUserRequest(
    username: string,
    password: string,
    status: string,
    phone: string,
    pushdeerToken: string)

  datatype CreateAppRequest = CreateAppRequest(
    appId: string,
    name: string,
    description: string,
    requiredLevel: string,
    isActive: bool)

  datatype UpdateUserRequest = UpdateUserRequest(phone: Option<string>, pushdeerToken: Option<string>)

  datatype GenerateNKeyRequest = GenerateNKeyRequest(username: seq<string>, appIds: seq<string>)
}

=== FILE: auth_context.dfy ===
/**
 * The session kept by the authentication provider: the token in durable
 * storage, the token in component state, and the identity query's cached
 * result (user and error flag). The identity query is keyed by a constant
 * key, not by the token, so its cached user and error outlive a logout and
 * the response of a fetch in flight is written to the cache whenever it
 * arrives; a response arrives only for a fetch that was started.
 *
 * Whether a token has expired is decided by code outside this model; it is
 * the parameter `expired`. A token is used only when truthy: the empty
 * string counts as no token.
 */
module AuthContext {
  import opened Wrappers
  import opened JsValues
  import opened ApiTypes
  import Permissions

  /** `retry: false`: the provider's observer never repeats a failed identity fetch. */
  const Retries: nat := 0

  /** Fetch attempts the provider's observer makes while its query stays enabled. */
  const MaxAttempts: nat := 1 + Retries

  datatype Session = Session(
    stored: Option<string>,
    token: Option<string>,
    user: Option<User>,
    error: bool,
    attempts: nat,
    pending: bool)

  /** `enabled: !!token`. */
  predicate FetchEnabled(s: Session)
    ensures FetchEnabled(s) ==> s.token.Some? && s.token.value != ""
    ensures s.token.None? || s.token == Some("") ==> !FetchEnabled(s)
  {
    Truthy(s.token)
  }

  /** `!!token && !!user`. */
  predicate IsAuthenticated(s: Session)
    ensures IsAuthenticated(s) ==> FetchEnabled(s) && s.user.Some?
    ensures s.user.Some? ==> (IsAuthenticated(s) <==> FetchEnabled(s))
  {
    Truthy(s.token) && s.user.Some?
  }

  /** `user?.status === 'admin'`: the raw status string, whatever the token. */
  predicate IsAdmin(s: Session)
    ensures IsAdmin(s) <==> s.user.Some? && Permissions.Parse(s.user.value.status) == Permissions.Admin
  {
    s.user.Some? && s.user.value.status == "admin"
  }

  /** The provider's first state: the stored token is kept only when present, non-empty and unexpired. */
  function Init(stored: Option<string>, expired: string -> bool): (s: Session)
    ensures s.stored == stored
    ensures s.token.Some? <==> Truthy(stored) && !expired(stored.value)
    ensures s.token.Some? ==> s.token == stored
    ensures s.user.None? && !IsAuthenticated(s) && !IsAdmin(s) && !s.error && s.attempts == 0
    ensures !s.pending
  {
    var t := if Truthy(stored) && !expired(stored.value) then stored else None;
    Session(stored, t, None, false, 0, false)
  }

  /** `login`: the new token goes to storage and to state; the identity cache is left as it is. */
  function Login(s: Session, newToken: string): (r: Session)
    ensures r.stored == Some(newToken) && r.token == Some(newToken)
    ensures r.user == s.user && r.error == s.error && r.pending == s.pending
    ensures FetchEnabled(r) <==> newToken != ""
  {
    var stillEnabled := FetchEnabled(s) && newToken != "";
    Session(Some(newToken), Some(newToken), s.user, s.error, if stillEnabled then s.attempts else 0, s.pending)
  }

  /** `logout`: storage and state lose the token; the identity cache is left as it is. */
  function Logout(s: Session): (r: Session)
    ensures r.stored.None? && r.token.None?
    ensures !IsAuthenticated(r) && !FetchEnabled(r)
    ensures r.user == s.user && r.error == s.error && r.pending == s.pending
  {
    Session(None, None, s.user, s.error, 0, s.pending)
  }

  /** The identity query starts a fetch: only while enabled, and only if no attempt was made yet. */
  function StartFetch(s: Session): (r: Session)
    ensures FetchEnabled(s) && s.attempts < MaxAttempts ==> r.attempts == s.attempts + 1 && r.pending
    ensures !(FetchEnabled(s) && s.attempts < MaxAttempts) ==> r == s
    ensures r.token == s.token && r.stored == s.stored && r.user == s.user && r.error == s.error
  {
    if FetchEnabled(s) && s.attempts < MaxAttempts then s.(attempts := s.attempts + 1, pending := true) else s
  }

  /**
   * The fetch in flight resolved with a user: it becomes the cached identity
   * and the error clears. With no fetch in flight nothing can arrive.
   */
  function FetchSucceeded(s: Session, u: User): (r: Session)
    ensures s.pending ==> r.user == Some(u) && !r.error && !r.pending
    ensures !s.pending ==> r == s
    ensures r.token == s.token && r.stored == s.stored && r.attempts == s.attempts
  {
    if s.pending then s.(user := Some(u), error := false, pending := false) else s
  }

  /**
   * The fetch in flight failed: the error is recorded and the previous data
   * stays in the cache. With no fetch in flight nothing can fail.
   */
  function FetchFailed(s: Session): (r: Session)
    ensures s.pending ==> r.error && !r.pending
    ensures !s.pending ==> r == s
    ensures r.user == s.user && r.token == s.token && r.stored == s.stored && r.attempts == s.attempts
  {
    if s.pending then s.(error := true, pending := false) else s
  }

  /** The effect on `[error, token]`: a fetch error or an expired token forces a logout. */
  function Effect(s: Session, expired: string -> bool): (r: Session)
    ensures r == s || r == Logout(s)
    ensures Truthy(r.token) ==> !r.error && !expired(r.token.value)
    ensures !s.error && !(Truthy(s.token) && expired(s.token.value)) ==> r == s
  {
    if s.error || (Truthy(s.token) && expired(s.token.value)) then Logout(s) else s
  }

  datatype Event =
    | LoginWith(newToken: string)
    | LogoutRequested
    | FetchStarted
    | FetchResolved(user: User)
    | FetchRejected
    | EffectRan

  function Step(s: Session, e: Event, expired: string -> bool): Session {
    match e
    case LoginWith(t) => Login(s, t)
    case LogoutRequested => Logout(s)
    case FetchStarted => StartFetch(s)
    case FetchResolved(u) => FetchSucceeded(s, u)
    case FetchRejected => FetchFailed(s)
    case EffectRan => Effect(s, expired)
  }

  function Run(s: Session, events: seq<Event>, expired: string -> bool): Session
    decreases |events|
  {
    if |events| == 0 then s else Run(Step(s, events[0], expired), events[1..], expired)
  }

  /** At most one fetch attempt per enablement, and none while disabled. */
  ghost predicate FetchBudget(s: Session) {
    s.attempts <= MaxAttempts && (!FetchEnabled(s) ==> s.attempts == 0)
  }

  lemma StepKeepsFetchBudget(s: Session, e: Event, expired: string -> bool)
    requires FetchBudget(s)
    ensures FetchBudget(Step(s, e, expired))
  {
  }

  /** From the initial state, any sequence of events keeps the fetch budget. */
  lemma {:induction false} RunKeepsFetchBudget(s: Session, events: seq<Event>, expired: string -> bool)
    requires FetchBudget(s)
    ensures FetchBudget(Run(s, events, expired))
    decreases |events|
  {
    if |events| > 0 {
      StepKeepsFetchBudget(s, events[0], expired);
      RunKeepsFetchBudget(Step(s, events[0], expired), events[1..], expired);
    }
  }

  lemma InitHasFetchBudget(stored: Option<string>, expired: string -> bool)
    ensures FetchBudget(Init(stored, expired))
  {
  }

  /** Once the one attempt is spent, no further fetch starts until the query is disabled and re-enabled. */
  lemma NoRetry(s: Session)
    requires FetchBudget(s) && s.attempts == MaxAttempts
    ensures StartFetch(s) == s
    ensures StartFetch(FetchFailed(s)) == FetchFailed(s)
  {
  }

  lemma LogoutIdempotent(s: Session)
    ensures Logout(Logout(s)) == Logout(s)
  {
  }

  /** Running the effect twice is running it once. */
  lemma EffectIdempotent(s: Session, expired: string -> bool)
    ensures Effect(Effect(s, expired), expired) == Effect(s, expired)
  {
  }

  /** A fetch error or an expired token ends the session at the next effect. */
  lemma FailureLogsOut(s: Session, expired: string -> bool)
    requires s.error || (Truthy(s.token) && expired(s.token.value))
    ensures Effect(s, expired) == Logout(s)
    ensures !IsAuthenticated(Effect(s, expired))
  {
  }

  /**
   * Round trip: logging in with a usable token, the effect the token change
   * triggers, the fetch the query then issues and its response. From a
   * session with no leftover fetch error whose query had not yet fetched
   * (it was disabled, or its attempt was unspent), the fetch is issued and
   * its user arrives: an authenticated session holding that token and user.
   * If the query was already enabled and had fetched, the token change
   * issues no fetch, since the query key does not change: with nothing in
   * flight the cached user stays. With a leftover error the first effect
   * logs out again.
   */
  lemma LoginThenFetch(s: Session, t: string, u: User, expired: string -> bool)
    requires t != "" && !expired(t)
    ensures var f := StartFetch(Effect(Login(s, t), expired));
      var r := Effect(FetchSucceeded(f, u), expired);
      !s.error && (!FetchEnabled(s) || s.attempts < MaxAttempts) ==>
        f.attempts == MaxAttempts && f.pending
        && IsAuthenticated(r) && r.token == Some(t) && r.stored == Some(t) && r.user == Some(u)
        && (IsAdmin(r) <==> u.status == "admin")
    ensures var f := StartFetch(Effect(Login(s, t), expired));
      var r := Effect(FetchSucceeded(f, u), expired);
      !s.error && FetchEnabled(s) && s.attempts >= MaxAttempts && !s.pending ==>
        f == Effect(Login(s, t), expired) && r.token == Some(t) && r.user == s.user
    ensures var r := Effect(FetchSucceeded(StartFetch(Effect(Login(s, t), expired)), u), expired);
      s.error ==> !IsAuthenticated(r) && r.token.None? && r.stored.None?
  {
    if s.error {
      StaleErrorUndoesLogin(s, t, expired);
    }
  }

  /**
   * The error flag is cleared only when a fetch resolves, so an error left
   * in the cache by an earlier failed fetch is still set when the token
   * changes: the effect on `[error, token]` logs the new token out at
   * once, and the query, now disabled, starts no fetch.
   */
  lemma StaleErrorUndoesLogin(s: Session, t: string, expired: string -> bool)
    requires s.error
    ensures Effect(Login(s, t), expired) == Logout(Login(s, t))
    ensures !FetchEnabled(Effect(Login(s, t), expired))
    ensures StartFetch(Effect(Login(s, t), expired)) == Effect(Login(s, t), expired)
  {
  }

  /**
   * Without a login no user ever arrives: from a session whose query is
   * disabled with nothing in flight and no cached user, every sequence of
   * events without a login keeps the cache empty.
   */
  lemma {:induction false} NoLoginNoUser(s: Session, events: seq<Event>, expired: string -> bool)
    requires !FetchEnabled(s) && !s.pending && s.user.None?
    requires forall i :: 0 <= i < |events| ==> !events[i].LoginWith?
    ensures Run(s, events, expired).user.None?
    decreases |events|
  {
    if |events| > 0 {
      var next := Step(s, events[0], expired);
      assert !FetchEnabled(next) && !next.pending && next.user.None?;
      NoLoginNoUser(next, events[1..], expired);
    }
  }

  /** An empty token is stored but never authenticates and never enables the fetch. */
  lemma EmptyTokenIsNoToken(s: Session)
    ensures !IsAuthenticated(Login(s, "")) && !FetchEnabled(Login(s, ""))
  {
  }

  /** isAdmin reads only the cached user: a logout leaves it as it was, though nobody is authenticated. */
  lemma AdminSurvivesLogout(s: Session)
    ensures IsAdmin(Logout(s)) == IsAdmin(s)
    ensures !IsAuthenticated(Logout(s))
  {
  }

  /**
   * isAdmin is a string comparison on the cached user, independent of the
   * token; an admin status is the top of the permission order.
   */
  lemma IsAdminReadsOnlyUser(s: Session, t: Option<string>, r: Permissions.Level)
    ensures IsAdmin(s.(token := t, stored := t)) == IsAdmin(s)
    ensures IsAdmin(s) <==> s.user.Some? && Permissions.Parse(s.user.value.status) == Permissions.Admin
    ensures IsAdmin(s) ==>
      (Permissions.HasPermission(Permissions.Parse(s.user.value.status), r) <==> Permissions.IsKnown(r))
  {
  }

  /**
   * A user's own status grants itself only when it names a level: the
   * backend's 'disabled' is not the engine's 'disableduser'.
   */
  lemma StatusGrantsItself(u: User)
    ensures Permissions.HasPermission(Permissions.Parse(u.status), Permissions.Parse(u.status))
      <==> u.status in Permissions.KnownKeys
    ensures u.status == "disabled" ==> !Permissions.HasPermission(Permissions.Parse(u.status), Permissions.Parse(u.status))
  {
  }
}

=== FILE: js_values.dfy ===
/**
 * JavaScript's `a || b` as the console uses it on strings and numbers that
 * may be missing (`user?.status || 'disableduser'`, `apps?.length || 0`).
 * A missing value, the empty string and the number 0 are falsy and select
 * the fallback.
 */
module JsValues {
  import opened Wrappers

  /** `!!v` for an optional string: absent and `''` are both falsy. */
  predicate Truthy(v: Option<string>) {
    v.Some? && v.value != ""
  }

  /** `v || fallback` on an optional string. */
  function OrString(v: Option<string>, fallback: string): (r: string)
    ensures Truthy(v) ==> r == v.value
    ensures !Truthy(v) ==> r == fallback
    ensures fallback != "" ==> r != ""
  {
    if Truthy(v) then v.value else fallback
  }

  /** `n || fallback` on an optional number: absent and 0 are falsy. */
  function OrNumber(v: Option<int>, fallback: int): (r: int)
    ensures v.Some? && v.value != 0 ==> r == v.value
    ensures !(v.Some? && v.value != 0) ==> r == fallback
  {
    if v.Some? && v.value != 0 then v.value else fallback
  }

  /** `xs?.length || 0`: the length, or 0 when the list is absent. */
  function LengthOrZero<T>(xs: Option<seq<T>>): (n: nat)
    ensures xs.None? ==> n == 0
    ensures xs.Some? ==> n == |xs.value|
  {
    var len := if xs.Some? then Some(|xs.value|) else None;
    OrNumber(len, 0)
  }

  /**
   * Property read on an object literal, given as its entries in declaration
   * order: the value under `key`, or `undefined` (None) when there is none.
   */
  function Get<V>(obj: seq<(string, V)>, key: string): (r: Option<V>)
    ensures r.None? <==> forall i :: 0 <= i < |obj| ==> obj[i].0 != key
    ensures r.Some? ==> exists i :: 0 <= i < |obj| && obj[i] == (key, r.value)
  {
    if |obj| == 0 then None
    else if obj[0].0 == key then Some(obj[0].1)
    else Get(obj[1..], key)
  }

  /** With fallback 0, `n || 0` cannot be told apart from "the number, or 0 when absent". */
  lemma OrZeroIsGetOr(v: Option<int>)
    ensures OrNumber(v, 0) == v.GetOr(0)
  {
  }
}

=== FILE: permission_guard.dfy ===
/**
 * The rendering guard and the permission badge. Rendered content is an
 * abstract node type `N`; `None` is the `null` node, which renders nothing.
 */
module PermissionGuard {
  import opened Wrappers
  import opened JsValues
  import opened Permissions

  /** What the guard renders: the children when the user's level meets the requirement, else the fallback. */
  function Guard<N>(userLevel: Level, requiredLevel: Level, children: N, fallback: Option<N>): (out: Option<N>)
    ensures HasPermission(userLevel, requiredLevel) ==> out == Some(children)
    ensures !HasPermission(userLevel, requiredLevel) ==> out == fallback
  {
    if HasPermission(userLevel, requiredLevel) then Some(children) else fallback
  }

  /** The default fallback is `null`: without one a denied guard renders nothing, a granted one the children. */
  lemma GuardWithoutFallback<N>(userLevel: Level, requiredLevel: Level, children: N)
    ensures Guard(userLevel, requiredLevel, children, None).None? <==> !HasPermission(userLevel, requiredLevel)
  {
  }

  /**
   * Monotonicity: a guard that denies at some requirement also denies at every
   * higher one, and at every requirement outside the four levels.
   */
  lemma GuardMonotone<N>(userLevel: Level, r: Level, higher: Level, children: N, fallback: Option<N>)
    requires !HasPermission(userLevel, r)
    requires !IsKnown(higher) || (IsKnown(r) && Rank(higher).value >= Rank(r).value)
    ensures Guard(userLevel, higher, children, fallback) == fallback
  {
  }

  /** The badge colour classes, shared with the admin tables' badges. */
  const PurpleClass := "bg-purple-100 text-purple-800"
  const BlueClass := "bg-blue-100 text-blue-800"
  const GreenClass := "bg-green-100 text-green-800"
  const RedClass := "bg-red-100 text-red-800"
  const GrayClass := "bg-gray-100 text-gray-800"

  /** `colorClasses`, keyed by colour tag. */
  const ColorClasses: seq<(string, string)> :=
    [("purple", PurpleClass), ("blue", BlueClass), ("green", GreenClass), ("red", RedClass), ("gray", GrayClass)]

  /** The fixed part of the badge's class list. */
  const BadgeBase := "inline-flex px-2 py-1 text-xs font-semibold rounded-full "

  datatype BadgeView = BadgeView(text: string, cssClass: string)

  /**
   * `PermissionBadge`: the level's display name inside a span whose class
   * list holds the colour class of the level's colour and the caller's
   * extra class (default ''). A colour without a class entry would
   * interpolate as the text 'undefined'.
   */
  function Badge(level: Level, className: string): (b: BadgeView)
    ensures b.text == DisplayName(level)
    ensures exists cls :: Get(ColorClasses, DisplayColor(level)) == Some(cls) && b.cssClass == BadgeBase + cls + " " + className
  {
    var color := DisplayColor(level);
    EveryColorHasClass(level);
    var cls := match Get(ColorClasses, color) case Some(c) => c case None => "undefined";
    BadgeView(DisplayName(level), BadgeBase + cls + " " + className)
  }

  /** Every colour the engine can return, 'gray' included, has a class entry. */
  lemma EveryColorHasClass(level: Level)
    ensures Get(ColorClasses, DisplayColor(level)).Some?
  {
    var c := DisplayColor(level);
    var k := if c == "purple" then 0 else if c == "blue" then 1 else if c == "green" then 2
      else if c == "red" then 3 else 4;
    assert ColorClasses[k].0 == c;
  }

  /** The class each colour tag looks up. */
  lemma ColorClassEntries()
    ensures Get(ColorClasses, "purple") == Some(PurpleClass)
    ensures Get(ColorClasses, "blue") == Some(BlueClass)
    ensures Get(ColorClasses, "green") == Some(GreenClass)
    ensures Get(ColorClasses, "red") == Some(RedClass)
    ensures Get(ColorClasses, "gray") == Some(GrayClass)
  {
    var t := ColorClasses;
    assert Get(t, "blue") == Get(t[1..], "blue");
    assert Get(t, "green") == Get(t[1..], "green") == Get(t[2..], "green");
    assert Get(t, "red") == Get(t[1..], "red") == Get(t[2..], "red") == Get(t[3..], "red");
    assert Get(t, "gray") == Get(t[1..], "gray") == Get(t[2..], "gray") == Get(t[3..], "gray") == Get(t[4..], "gray");
  }

  /** An unknown level gets the 'Unknown' label in gray. */
  lemma UnknownBadge(level: Level, className: string)
    requires !IsKnown(level)
    ensures Badge(level, className) == BadgeView("Unknown", BadgeBase + GrayClass + " " + className)
  {
  }
}

=== FILE: permissions.dfy ===
/**
 * The permission engine: a total order over four levels,
 * admin > trusted > user > disableduser, given by an explicit rank table,
 * with display lookups that fail closed and two list operations built on
 * the comparison.
 *
 * Level values reach the engine as strings (a user's `status` is passed in
 * unchanged), so every operation reads a level through `Key`, the string
 * the program sees. A string outside the four names has no rank; any
 * comparison involving it is false, and the display lookups fall back to
 * 'Unknown' / 'gray'.
 */
module Permissions {
  import opened Wrappers
  import opened JsValues
  import ApiTypes

  datatype Level = DisabledUser | User | Trusted | Admin | Raw(name: string)

  /** The four level names. */
  const KnownKeys: set<string> := {"disableduser", "user", "trusted", "admin"}

  /** The string under which a level travels. */
  function Key(l: Level): string {
    match l
    case DisabledUser => "disableduser"
    case User => "user"
    case Trusted => "trusted"
    case Admin => "admin"
    case Raw(s) => s
  }

  /** Reads a string as a level, keeping any other string as `Raw`. */
  function Parse(s: string): (l: Level)
    ensures Key(l) == s
    ensures l.Raw? <==> s !in KnownKeys
  {
    if s == "disableduser" then DisabledUser
    else if s == "user" then User
    else if s == "trusted" then Trusted
    else if s == "admin" then Admin
    else Raw(s)
  }

  /** The form `Parse` produces: `Raw` only for strings that name no level. */
  predicate Canonical(l: Level) {
    l.Raw? ==> l.name !in KnownKeys
  }

  lemma ParseKey(l: Level)
    requires Canonical(l)
    ensures Parse(Key(l)) == l
  {
  }

  /** `PERMISSION_LEVELS`, its entries in declaration order. */
  const RankTable: seq<(string, int)> :=
    [("disableduser", 1), ("user", 2), ("trusted", 3), ("admin", 4)]

  /** `PERMISSION_LEVELS[level]`; None stands for `undefined`. */
  function Rank(l: Level): (r: Option<int>)
    ensures r.Some? <==> Key(l) in KnownKeys
    ensures r.Some? ==> 1 <= r.value <= 4
    ensures Key(l) == "disableduser" ==> r == Some(1)
    ensures Key(l) == "user" ==> r == Some(2)
    ensures Key(l) == "trusted" ==> r == Some(3)
    ensures Key(l) == "admin" ==> r == Some(4)
  {
    Get(RankTable, Key(l))
  }

  predicate IsKnown(l: Level) {
    Rank(l).Some?
  }

  /** No two level names share a rank. */
  lemma RanksDistinct(a: Level, b: Level)
    requires IsKnown(a) && IsKnown(b) && Rank(a) == Rank(b)
    ensures Key(a) == Key(b)
  {
  }

  /** `hasPermission`: the user's rank is at least the required rank; false when either is undefined. */
  predicate HasPermission(userLevel: Level, requiredLevel: Level)
    ensures HasPermission(userLevel, requiredLevel) ==> IsKnown(userLevel) && IsKnown(requiredLevel)
    ensures Key(userLevel) == Key(requiredLevel) ==> (HasPermission(userLevel, requiredLevel) <==> IsKnown(userLevel))
    ensures Key(userLevel) == "admin" ==> (HasPermission(userLevel, requiredLevel) <==> IsKnown(requiredLevel))
    ensures Key(requiredLevel) == "disableduser" ==> (HasPermission(userLevel, requiredLevel) <==> IsKnown(userLevel))
  {
    var u := Rank(userLevel);
    var r := Rank(requiredLevel);
    u.Some? && r.Some? && u.value >= r.value
  }

  /** `canAccessApp`: the same comparison, user level first, app requirement second. */
  predicate CanAccessApp(userLevel: Level, appRequiredLevel: Level)
    ensures CanAccessApp(userLevel, appRequiredLevel) ==> IsKnown(userLevel) && IsKnown(appRequiredLevel)
    ensures Key(userLevel) == "admin" ==> (CanAccessApp(userLevel, appRequiredLevel) <==> IsKnown(appRequiredLevel))
    ensures Key(userLevel) == "user" && Key(appRequiredLevel) == "admin" ==> !CanAccessApp(userLevel, appRequiredLevel)
  {
    HasPermission(userLevel, appRequiredLevel)
  }

  /** The hierarchy, lowest first, as an independent reference for the rank table. */
  const Hierarchy: seq<Level> := [DisabledUser, User, Trusted, Admin]

  /** Each of the four names sits in the hierarchy at the position of its rank. */
  lemma RankIsHierarchyPosition(a: Level)
    requires IsKnown(a)
    ensures Key(Hierarchy[Rank(a).value - 1]) == Key(a)
  {
  }

  /** Holding a permission means sitting at or above the requirement in the hierarchy. */
  lemma HasPermissionFollowsHierarchy(a: Level, b: Level)
    ensures HasPermission(a, b) <==>
      exists i, j :: 0 <= j <= i < |Hierarchy| && Key(Hierarchy[i]) == Key(a) && Key(Hierarchy[j]) == Key(b)
  {
    if HasPermission(a, b) {
      RankIsHierarchyPosition(a);
      RankIsHierarchyPosition(b);
      assert Key(Hierarchy[Rank(a).value - 1]) == Key(a);
    }
    if exists i, j :: 0 <= j <= i < |Hierarchy| && Key(Hierarchy[i]) == Key(a) && Key(Hierarchy[j]) == Key(b) {
      var i, j :| 0 <= j <= i < |Hierarchy| && Key(Hierarchy[i]) == Key(a) && Key(Hierarchy[j]) == Key(b);
      HierarchyRanks();
      assert Rank(a) == Rank(Hierarchy[i]) && Rank(b) == Rank(Hierarchy[j]);
    }
  }

  /** On the four levels the comparison is reflexive ... */
  lemma HasPermissionReflexive(a: Level)
    ensures HasPermission(a, a) <==> IsKnown(a)
  {
  }

  /** ... transitive ... */
  lemma HasPermissionTransitive(a: Level, b: Level, c: Level)
    requires HasPermission(a, b) && HasPermission(b, c)
    ensures HasPermission(a, c)
  {
  }

  /** ... total ... */
  lemma HasPermissionTotal(a: Level, b: Level)
    requires IsKnown(a) && IsKnown(b)
    ensures HasPermission(a, b) || HasPermission(b, a)
  {
  }

  /** ... and antisymmetric up to the name a level travels under. */
  lemma HasPermissionAntisymmetric(a: Level, b: Level)
    requires HasPermission(a, b) && HasPermission(b, a)
    ensures Key(a) == Key(b)
  {
    RanksDistinct(a, b);
  }

  /** admin meets every known requirement; disableduser meets only disableduser. */
  lemma AdminAndDisabledExtremes(u: Level, r: Level)
    ensures Key(u) == "admin" ==> (HasPermission(u, r) <==> IsKnown(r))
    ensures Key(u) == "disableduser" ==> (HasPermission(u, r) <==> Key(r) == "disableduser")
  {
  }

  /** Fail closed: a value outside the four levels neither holds nor is met by any permission. */
  lemma UnknownNeverCompares(a: Level, b: Level)
    requires !IsKnown(a) || !IsKnown(b)
    ensures !HasPermission(a, b)
    ensures !CanAccessApp(a, b)
  {
  }

  /** `canAccessApp` keeps the user first: it is not the comparison with its arguments swapped. */
  lemma CanAccessAppDirection(u: Level, r: Level)
    ensures CanAccessApp(u, r) == HasPermission(u, r)
    ensures Key(u) == "user" && Key(r) == "admin" ==> !CanAccessApp(u, r) && CanAccessApp(r, u)
  {
  }

  /** `names` in `getPermissionLevelName`. */
  const NameTable: seq<(string, string)> :=
    [("admin", "Administrator"), ("trusted", "Trusted User"),
     ("user", "Standard User"), ("disableduser", "Disabled User")]

  /** `getPermissionLevelName`: the label, or 'Unknown' for any other value. */
  function DisplayName(l: Level): (r: string)
    ensures r == "Unknown" <==> !IsKnown(l)
    ensures Key(l) == "admin" ==> r == "Administrator"
    ensures Key(l) == "trusted" ==> r == "Trusted User"
    ensures Key(l) == "user" ==> r == "Standard User"
    ensures Key(l) == "disableduser" ==> r == "Disabled User"
  {
    OrString(Get(NameTable, Key(l)), "Unknown")
  }

  /** Four levels, four different labels. */
  lemma DisplayNameDistinct(a: Level, b: Level)
    requires IsKnown(a) && IsKnown(b) && DisplayName(a) == DisplayName(b)
    ensures Key(a) == Key(b)
  {
    var ka, kb := Key(a), Key(b);
    if ka == "admin" {
      assert DisplayName(b) == "Administrator";
    } else if ka == "trusted" {
      assert DisplayName(b) == "Trusted User";
    } else if ka == "user" {
      assert DisplayName(b) == "Standard User";
    } else {
      assert DisplayName(b) == "Disabled User";
    }
  }

  /** `colors` in `getPermissionLevelColor`. */
  const ColorTable: seq<(string, string)> :=
    [("admin", "purple"), ("trusted", "blue"), ("user", "green"), ("disableduser", "red")]

  /** The colours `DisplayColor` can produce. */
  const Colors: set<string> := {"purple", "blue", "green", "red", "gray"}

  /** `getPermissionLevelColor`: the colour tag, or 'gray' for any other value. */
  function DisplayColor(l: Level): (r: string)
    ensures r in Colors
    ensures r == "gray" <==> !IsKnown(l)
    ensures Key(l) == "admin" ==> r == "purple"
    ensures Key(l) == "trusted" ==> r == "blue"
    ensures Key(l) == "user" ==> r == "green"
    ensures Key(l) == "disableduser" ==> r == "red"
  {
    OrString(Get(ColorTable, Key(l)), "gray")
  }

  /** `xs` keeps some of the elements of `ys`, in their order. */
  ghost predicate IsSubsequence<T>(xs: seq<T>, ys: seq<T>)
    decreases |ys|
  {
    if |ys| == 0 then |xs| == 0
    else (|xs| > 0 && xs[0] == ys[0] && IsSubsequence(xs[1..], ys[1..])) || IsSubsequence(xs, ys[1..])
  }

  /** The filter condition of `getAccessibleApps`. */
  predicate AppAllowed(userLevel: Level, app: ApiTypes.App) {
    HasPermission(userLevel, Parse(app.requiredLevel))
  }

  /** `s.filter(keep)`: the elements `keep` accepts, in their order, each as often as in `s`. */
  function Filter<T(!new)>(s: seq<T>, keep: T -> bool): (r: seq<T>)
    ensures |r| <= |s|
    ensures IsSubsequence(r, s)
    ensures forall a :: a in r <==> a in s && keep(a)
    ensures forall a :: multiset(r)[a] == if keep(a) then multiset(s)[a] else 0
  {
    if |s| == 0 then []
    else
      var rest := Filter(s[1..], keep);
      assert s == [s[0]] + s[1..];
      if keep(s[0]) then [s[0]] + rest else rest
  }

  /** `getAccessibleApps`: the apps the user's level satisfies, in input order. */
  function AccessibleApps(apps: seq<ApiTypes.App>, userLevel: Level): (r: seq<ApiTypes.App>)
    ensures |r| <= |apps|
    ensures IsSubsequence(r, apps)
    ensures forall a :: a in r <==> a in apps && AppAllowed(userLevel, a)
    ensures forall a :: multiset(r)[a] == if AppAllowed(userLevel, a) then multiset(apps)[a] else 0
  {
    Filter(apps, a => AppAllowed(userLevel, a))
  }

  /** Rank as the sort comparator reads it; the sorted values are all known. */
  function SortKey(l: Level): int {
    Rank(l).GetOr(0)
  }

  /** The entries of a rank table whose rank is at most `current`, as levels, in table order. */
  function EntriesAtOrBelow(table: seq<(string, int)>, current: Option<int>): (r: seq<Level>)
    ensures |r| <= |table|
    ensures forall l :: l in r <==>
      exists i :: 0 <= i < |table| && Parse(table[i].0) == l && current.Some? && table[i].1 <= current.value
  {
    if |table| == 0 then []
    else
      var rest := EntriesAtOrBelow(table[1..], current);
      if current.Some? && table[0].1 <= current.value then [Parse(table[0].0)] + rest else rest
  }

  predicate SortedDesc<T>(s: seq<T>, key: T -> int) {
    forall i, j :: 0 <= i < j < |s| ==> key(s[i]) >= key(s[j])
  }

  function InsertDesc<T>(x: T, s: seq<T>, key: T -> int): (r: seq<T>)
    requires SortedDesc(s, key)
    ensures multiset(r) == multiset(s) + multiset{x}
    ensures SortedDesc(r, key)
    ensures |r| == |s| + 1 && (r[0] == x || (|s| > 0 && r[0] == s[0]))
  {
    if |s| == 0 then [x]
    else if key(s[0]) <= key(x) then [x] + s
    else
      var rest := InsertDesc(x, s[1..], key);
      assert s == [s[0]] + s[1..];
      assert key(rest[0]) <= key(s[0]) by {
        if rest[0] != x { assert rest[0] == s[1]; }
      }
      ConsSorted(s[0], rest, key);
      [s[0]] + rest
  }

  /** Putting an element with the largest key in front of a sorted sequence keeps it sorted. */
  lemma ConsSorted<T>(h: T, t: seq<T>, key: T -> int)
    requires SortedDesc(t, key)
    requires |t| > 0 ==> key(t[0]) <= key(h)
    ensures SortedDesc([h] + t, key)
  {
    var r := [h] + t;
    forall i, j | 0 <= i < j < |r|
      ensures key(r[i]) >= key(r[j])
    {
      assert r[j] == t[j - 1];
      if i > 0 {
        assert r[i] == t[i - 1];
      } else if j > 1 {
        assert key(t[0]) >= key(t[j - 1]);
      }
    }
  }

  /** A stable sort by descending key: `sort((a, b) => key(b) - key(a))`. */
  function SortDesc<T>(s: seq<T>, key: T -> int): (r: seq<T>)
    ensures multiset(r) == multiset(s)
    ensures SortedDesc(r, key)
  {
    if |s| == 0 then []
    else
      assert s == [s[0]] + s[1..];
      InsertDesc(s[0], SortDesc(s[1..], key), key)
  }

  function Reverse<T>(s: seq<T>): (r: seq<T>)
    ensures |r| == |s|
    ensures forall i :: 0 <= i < |s| ==> r[i] == s[|s| - 1 - i]
  {
    if |s| == 0 then [] else Reverse(s[1..]) + [s[0]]
  }

  /** An element ranked below everything already sorted goes to the end. */
  lemma {:induction false} InsertBelowAll<T>(x: T, t: seq<T>, key: T -> int)
    requires SortedDesc(t, key)
    requires forall k :: 0 <= k < |t| ==> key(t[k]) > key(x)
    ensures InsertDesc(x, t, key) == t + [x]
  {
    if |t| > 0 {
      InsertBelowAll(x, t[1..], key);
      assert t == [t[0]] + t[1..];
    }
  }

  /** Sorting a strictly ascending sequence in descending order reverses it. */
  lemma {:induction false} SortAscendingIsReverse<T>(s: seq<T>, key: T -> int)
    requires forall i, j :: 0 <= i < j < |s| ==> key(s[i]) < key(s[j])
    ensures SortDesc(s, key) == Reverse(s)
  {
    if |s| > 0 {
      SortAscendingIsReverse(s[1..], key);
      InsertBelowAll(s[0], Reverse(s[1..]), key);
    }
  }

  /** The table lists the hierarchy in order: the entries ranked at most `p` are its first `p` levels. */
  lemma EntriesArePrefix(p: int)
    requires 1 <= p <= 4
    ensures EntriesAtOrBelow(RankTable, Some(p)) == Hierarchy[..p]
  {
    var t := RankTable;
    var c := Some(p);
    assert t[1..][1..][1..][1..] == [];
    assert EntriesAtOrBelow(t[1..][1..][1..], c) == if 4 <= p then [Admin] else [];
    assert EntriesAtOrBelow(t[1..][1..], c) == (if 3 <= p then [Trusted] else []) + (if 4 <= p then [Admin] else []);
    assert EntriesAtOrBelow(t[1..], c) ==
      (if 2 <= p then [User] else []) + (if 3 <= p then [Trusted] else []) + (if 4 <= p then [Admin] else []);
  }

  lemma HierarchyRanks()
    ensures forall i :: 0 <= i < |Hierarchy| ==> SortKey(Hierarchy[i]) == i + 1
  {
    forall i | 0 <= i < |Hierarchy|
      ensures SortKey(Hierarchy[i]) == i + 1
    {
      if i == 0 {
        assert Rank(DisabledUser) == Some(1);
      } else if i == 1 {
        assert Rank(User) == Some(2);
      } else if i == 2 {
        assert Rank(Trusted) == Some(3);
      } else {
        assert Rank(Admin) == Some(4);
      }
    }
  }

  /** `getAvailableLevels`: the levels ranked at or below `current`, highest first. */
  function AvailableLevels(current: Level): (r: seq<Level>)
    ensures |r| <= |RankTable|
    ensures SortedDesc(r, SortKey)
    ensures !IsKnown(current) ==> r == []
  {
    var entries := EntriesAtOrBelow(RankTable, Rank(current));
    assert |entries| > 0 ==> entries[0] in entries;
    var r := SortDesc(entries, SortKey);
    assert |r| == |multiset(r)| == |multiset(entries)| == |entries|;
    r
  }

  /** For a known level the available levels are the hierarchy up to it, reversed. */
  lemma AvailableIsReversedPrefix(current: Level)
    requires IsKnown(current)
    ensures AvailableLevels(current) == Reverse(Hierarchy[..Rank(current).value])
  {
    var p := Rank(current).value;
    EntriesArePrefix(p);
    HierarchyRanks();
    SortAscendingIsReverse(Hierarchy[..p], SortKey);
  }

  lemma InReverse<T>(s: seq<T>, x: T)
    ensures x in Reverse(s) <==> x in s
  {
    var r := Reverse(s);
    if x in s {
      var k :| 0 <= k < |s| && s[k] == x;
      assert r[|s| - 1 - k] == x;
    }
    if x in r {
      var k :| 0 <= k < |r| && r[k] == x;
      assert s[|s| - 1 - k] == x;
    }
  }

  lemma AvailableMembersArePrefix(current: Level, l: Level, p: int)
    requires Rank(current) == Some(p)
    ensures l in AvailableLevels(current) <==> l in Hierarchy[..p]
  {
    AvailableIsReversedPrefix(current);
    InReverse(Hierarchy[..p], l);
  }

  lemma AvailableMembers(current: Level, l: Level)
    requires IsKnown(current)
    ensures l in AvailableLevels(current) <==> Canonical(l) && HasPermission(current, l)
  {
    var p := Rank(current).value;
    AvailableMembersArePrefix(current, l, p);
    InHierarchyPrefix(l, p);
    DominatedByRank(current, l, p);
  }

  /** Below a level of rank `p` sit exactly the four levels whose rank is at most `p`. */
  lemma DominatedByRank(current: Level, l: Level, p: int)
    requires Rank(current) == Some(p)
    ensures !l.Raw? && SortKey(l) <= p <==> Canonical(l) && HasPermission(current, l)
  {
  }

  /** A level is among the first `p` of the hierarchy iff it is one of the four ranked at most `p`. */
  lemma InHierarchyPrefix(l: Level, p: int)
    requires 1 <= p <= 4
    ensures l in Hierarchy[..p] <==> !l.Raw? && SortKey(l) <= p
  {
    var pre := Hierarchy[..p];
    assert pre[0] == DisabledUser;
    if p >= 2 { assert pre[1] == User; }
    if p >= 3 { assert pre[2] == Trusted; }
    if p >= 4 { assert pre[3] == Admin; }
    if p == 1 { assert pre == [DisabledUser]; }
    if p == 2 { assert pre == [DisabledUser, User]; }
    if p == 3 { assert pre == [DisabledUser, User, Trusted]; }
  }

  /** Each of the four levels sits in the hierarchy at its rank. */
  lemma HierarchyPosition(l: Level)
    requires !l.Raw?
    ensures 1 <= SortKey(l) <= 4 && Hierarchy[SortKey(l) - 1] == l
  {
  }

  /** Reversing the ranked prefix gives a strictly descending list of length `p`. */
  lemma AvailableDescending(current: Level, p: int)
    requires Rank(current) == Some(p)
    ensures var r := AvailableLevels(current);
      && (forall i, j :: 0 <= i < j < |r| ==> SortKey(r[i]) > SortKey(r[j]))
      && |r| == p
  {
    AvailableIsReversedPrefix(current);
    ReversedPrefixDescending(p);
  }

  lemma ReversedPrefixDescending(p: int)
    requires 1 <= p <= 4
    ensures var r := Reverse(Hierarchy[..p]);
      forall i, j :: 0 <= i < j < |r| ==> SortKey(r[i]) > SortKey(r[j])
  {
    HierarchyRanks();
    ReverseOfNumbered(Hierarchy[..p], SortKey);
  }

  /** Reversing a sequence whose keys are 1, 2, ... gives strictly descending keys. */
  lemma ReverseOfNumbered<T>(s: seq<T>, key: T -> int)
    requires forall i :: 0 <= i < |s| ==> key(s[i]) == i + 1
    ensures forall i, j :: 0 <= i < j < |s| ==> key(Reverse(s)[i]) > key(Reverse(s)[j])
  {
    var r := Reverse(s);
    assert forall i :: 0 <= i < |r| ==> key(r[i]) == |s| - i;
  }

  /** The list is headed by the current level itself. */
  lemma AvailableHead(current: Level, p: int)
    requires Rank(current) == Some(p)
    ensures |AvailableLevels(current)| == p && AvailableLevels(current)[0] == Parse(Key(current))
  {
    AvailableIsReversedPrefix(current);
    var c := Parse(Key(current));
    HierarchyPosition(c);
    assert SortKey(c) == p;
  }

  lemma AvailableUnknown(current: Level)
    requires !IsKnown(current)
    ensures AvailableLevels(current) == []
  {
    assert EntriesAtOrBelow(RankTable, Rank(current)) == [];
  }

  /**
   * The available levels are exactly the four levels the current one
   * dominates, strictly descending, headed by the current level itself,
   * and as many as its rank; an unknown level gets none.
   */
  lemma AvailableLevelsSpec(current: Level)
    ensures var r := AvailableLevels(current);
      && (forall i, j :: 0 <= i < j < |r| ==> SortKey(r[i]) > SortKey(r[j]))
      && (forall l :: l in r <==> Canonical(l) && HasPermission(current, l))
      && |r| == Rank(current).GetOr(0)
      && (IsKnown(current) ==> r[0] == Parse(Key(current)))
  {
    match Rank(current)
    case Some(p) =>
      AvailableDescending(current, p);
      AvailableHead(current, p);
      forall l
        ensures l in AvailableLevels(current) <==> Canonical(l) && HasPermission(current, l)
      {
        AvailableMembers(current, l);
      }
    case None =>
      AvailableUnknown(current);
  }

  lemma ReverseThree<T>(a: T, b: T, c: T)
    ensures Reverse([a, b, c]) == [c, b, a]
  {
    assert [a, b, c][1..] == [b, c] && [b, c][1..] == [c] && [c][1..] == [];
    assert Reverse([c]) == [c];
    assert Reverse([b, c]) == [c, b];
  }

  lemma AvailableOfRankThree(current: Level)
    requires Rank(current) == Some(3)
    ensures AvailableLevels(current) == Reverse([DisabledUser, User, Trusted])
  {
    AvailableIsReversedPrefix(current);
    assert Hierarchy[..3] == [DisabledUser, User, Trusted];
  }

  /** Any value reading 'trusted' gets trusted, user and disableduser, in that order. */
  lemma AvailableTrusted(current: Level)
    requires Key(current) == "trusted"
    ensures AvailableLevels(current) == [Trusted, User, DisabledUser]
  {
    AvailableOfRankThree(current);
    ReverseThree(DisabledUser, User, Trusted);
  }
}

=== FILE: register_page.dfy ===
/**
 * The registration page: its schema, the payload its submit handler
 * builds, and the error and success messages it shows.
 */
module RegisterPage {
  import opened Wrappers
  import opened JsValues
  import opened ApiTypes
  import opened Validation

  /** The form as the schema sees it; the PushDeer token is optional. */
  datatype RegisterForm = RegisterForm(
    username: string,
    password: string,
    phone: string,
    pushdeerToken: Option<string>,
    inviteCode: string)

  const InviteCodeRule := MinLength(1, "Invite code is required")

  /** `registerSchema`: every field is checked, in declaration order. */
  function ValidateRegister(f: RegisterForm): (issues: seq<Issue>)
    ensures issues == [] <==>
      |f.username| >= 3 && |f.password| >= 6 && |f.phone| >= 10 && |f.inviteCode| >= 1
    ensures Flagged(issues) ==
      (if |f.username| < 3 then {"username"} else {}) + (if |f.password| < 6 then {"password"} else {})
      + (if |f.phone| < 10 then {"phone"} else {}) + (if |f.inviteCode| < 1 then {"invite_code"} else {})
  {
    var a := CheckField("username", f.username, UsernameRule);
    var b := CheckField("password", f.password, PasswordRule);
    var c := CheckField("phone", f.phone, PhoneRule);
    var d := CheckField("invite_code", f.inviteCode, InviteCodeRule);
    FlaggedConcat(a, b);
    FlaggedConcat(a + b, c);
    FlaggedConcat(a + b + c, d);
    a + b + c + d
  }

  /** Each field is reported exactly when it breaks its own rule; the optional PushDeer token never is. */
  lemma RegisterFlags(f: RegisterForm)
    ensures "username" in Flagged(ValidateRegister(f)) <==> |f.username| < 3
    ensures "password" in Flagged(ValidateRegister(f)) <==> |f.password| < 6
    ensures "phone" in Flagged(ValidateRegister(f)) <==> |f.phone| < 10
    ensures "invite_code" in Flagged(ValidateRegister(f)) <==> |f.inviteCode| < 1
    ensures "pushdeer_token" !in Flagged(ValidateRegister(f))
  {
  }

  /** `onSubmit`'s request: the form as it is, with a missing or empty PushDeer token sent as ''. */
  function RegisterPayload(f: RegisterForm): (r: RegisterRequest)
    ensures r.username == f.username && r.password == f.password && r.phone == f.phone
    ensures r.inviteCode == f.inviteCode
    ensures r.pushdeerToken == f.pushdeerToken.GetOr("")
  {
    RegisterRequest(f.username, f.password, f.phone, OrString(f.pushdeerToken, ""), f.inviteCode)
  }

  /** Reading a request back as a form gives a form that validates exactly as the original did. */
  lemma PayloadValidatesAlike(f: RegisterForm)
    ensures var r := RegisterPayload(f);
      ValidateRegister(RegisterForm(r.username, r.password, r.phone, Some(r.pushdeerToken), r.inviteCode))
        == ValidateRegister(f)
  {
  }

  /** The messages the page shows. */
  datatype RegisterUi = RegisterUi(error: string, success: string)

  datatype SubmitOutcome = SubmitOutcome(ui: RegisterUi, request: Option<RegisterRequest>)

  /**
   * Submitting the form: a form with issues is not handed to `onSubmit`;
   * a valid one clears both messages and issues the request.
   */
  function Submit(ui: RegisterUi, f: RegisterForm): (r: SubmitOutcome)
    ensures r.request.Some? <==> ValidateRegister(f) == []
    ensures r.request.Some? ==> r.ui == RegisterUi("", "") && r.request.value == RegisterPayload(f)
    ensures r.request.None? ==> r.ui == ui
  {
    if ValidateRegister(f) == [] then SubmitOutcome(RegisterUi("", ""), Some(RegisterPayload(f)))
    else SubmitOutcome(ui, None)
  }

  const FailureFallback := "Registration failed"
  const SuccessMessage := "Account created successfully! Please login."

  /** The request failed: the server's message if it sent a non-empty one, otherwise the fallback text. */
  function OnError(ui: RegisterUi, serverMessage: Option<string>): (r: RegisterUi)
    ensures r.error != ""
    ensures Truthy(serverMessage) ==> r.error == serverMessage.value
    ensures !Truthy(serverMessage) ==> r.error == FailureFallback
    ensures r.success == ui.success
  {
    ui.(error := OrString(serverMessage, FailureFallback))
  }

  function OnSuccess(ui: RegisterUi): (r: RegisterUi)
    ensures r.success != "" && r.error == ui.error
  {
    ui.(success := SuccessMessage)
  }

  /** A failed request after a submit shows only the error; a successful one only the success message. */
  lemma MessagesAfterSubmit(ui: RegisterUi, f: RegisterForm, serverMessage: Option<string>)
    requires ValidateRegister(f) == []
    ensures OnError(Submit(ui, f).ui, serverMessage).success == ""
    ensures OnSuccess(Submit(ui, f).ui).error == ""
  {
  }
}

=== FILE: text.dfy ===
/**
 * The two string operations the request shaping uses: JavaScript's
 * `String.prototype.split` with a one-character separator, and `trim`.
 * Which characters `trim` removes is a parameter `ws`.
 */
module Text {

  /** The number of occurrences of `c` in `s`. */
  function Count(s: string, c: char): nat {
    if |s| == 0 then 0 else (if s[0] == c then 1 else 0) + Count(s[1..], c)
  }

  /** The pieces glued back together with `sep` between consecutive pieces. */
  function Join(parts: seq<string>, sep: char): string
    requires |parts| > 0
  {
    if |parts| == 1 then parts[0] else parts[0] + [sep] + Join(parts[1..], sep)
  }

  /**
   * `s.split(sep)`: the pieces between separators, empty pieces included;
   * the empty string splits into one empty piece.
   */
  function Split(s: string, sep: char): (parts: seq<string>)
    ensures |parts| == Count(s, sep) + 1
    ensures forall i :: 0 <= i < |parts| ==> sep !in parts[i]
    ensures Join(parts, sep) == s
  {
    if |s| == 0 then [""]
    else
      var rest := Split(s[1..], sep);
      assert s == [s[0]] + s[1..];
      if s[0] == sep then
        assert Join([""] + rest, sep) == [sep] + Join(rest, sep) by {
          assert ([""] + rest)[1..] == rest;
        }
        [""] + rest
      else
        var parts := [[s[0]] + rest[0]] + rest[1..];
        assert Join(parts, sep) == [s[0]] + Join(rest, sep) by {
          if |rest| > 1 {
            assert parts[1..] == rest[1..];
          }
        }
        parts
  }

  /** A leading separator starts a new, empty first piece. */
  lemma SplitSeparatorFirst(s: string, sep: char)
    ensures Split([sep] + s, sep) == [""] + Split(s, sep)
  {
    assert ([sep] + s)[1..] == s;
  }

  /** Any other leading character extends the first piece. */
  lemma SplitOtherFirst(c: char, s: string, sep: char)
    requires c != sep
    ensures Split([c] + s, sep) == [[c] + Split(s, sep)[0]] + Split(s, sep)[1..]
  {
    assert ([c] + s)[1..] == s;
  }

  /** Splitting undoes joining pieces that contain no separator. */
  lemma {:induction false} SplitJoin(parts: seq<string>, sep: char)
    requires |parts| > 0
    requires forall i :: 0 <= i < |parts| ==> sep !in parts[i]
    ensures Split(Join(parts, sep), sep) == parts
    decreases |parts|, |parts[0]|
  {
    if |parts| == 1 {
      NoSeparatorSplit(parts[0], sep);
    } else if |parts[0]| == 0 {
      var tail := parts[1..];
      SplitJoin(tail, sep);
      assert Join(parts, sep) == [sep] + Join(tail, sep);
      SplitSeparatorFirst(Join(tail, sep), sep);
      assert parts == [""] + tail;
    } else {
      var c := parts[0][0];
      var shorter := [parts[0][1..]] + parts[1..];
      assert c != sep by { assert parts[0][0] in parts[0]; }
      forall i | 0 <= i < |shorter|
        ensures sep !in shorter[i]
      {
        if i == 0 {
          assert forall x :: x in parts[0][1..] ==> x in parts[0];
        } else {
          assert shorter[i] == parts[i];
        }
      }
      SplitJoin(shorter, sep);
      JoinShorterFirst(parts, sep);
      SplitOtherFirst(c, Join(shorter, sep), sep);
      assert parts[0] == [c] + shorter[0];
      assert parts == [parts[0]] + shorter[1..];
    }
  }

  /** Joining is the first character followed by the join with that character removed. */
  lemma JoinShorterFirst(parts: seq<string>, sep: char)
    requires |parts| > 1 && |parts[0]| > 0
    ensures Join(parts, sep) == [parts[0][0]] + Join([parts[0][1..]] + parts[1..], sep)
  {
    var shorter := [parts[0][1..]] + parts[1..];
    assert shorter[1..] == parts[1..];
    assert parts[0] == [parts[0][0]] + parts[0][1..];
  }

  /** A string without the separator splits into itself alone. */
  lemma {:induction false} NoSeparatorSplit(s: string, sep: char)
    requires sep !in s
    ensures Split(s, sep) == [s]
  {
    if |s| > 0 {
      assert forall x :: x in s[1..] ==> x in s;
      NoSeparatorSplit(s[1..], sep);
    }
  }

  /** `s` has no removable character at either end. */
  predicate IsTrimmed(ws: char -> bool, s: string) {
    |s| == 0 || (!ws(s[0]) && !ws(s[|s| - 1]))
  }

  /** The length of the leading run of removable characters. */
  function LeadingRun(ws: char -> bool, s: string): (n: nat)
    ensures n <= |s|
    ensures forall i :: 0 <= i < n ==> ws(s[i])
    ensures n < |s| ==> !ws(s[n])
  {
    if |s| > 0 && ws(s[0]) then 1 + LeadingRun(ws, s[1..]) else 0
  }

  /** The length of the trailing run of removable characters. */
  function TrailingRun(ws: char -> bool, s: string): (n: nat)
    ensures n <= |s|
    ensures forall i :: |s| - n <= i < |s| ==> ws(s[i])
    ensures n < |s| ==> !ws(s[|s| - n - 1])
  {
    if |s| > 0 && ws(s[|s| - 1]) then 1 + TrailingRun(ws, s[..|s| - 1]) else 0
  }

  /** `r` is `s` with the first `k` characters and everything after `r` cut away, all of them removable. */
  ghost predicate CutAt(ws: char -> bool, s: string, r: string, k: int) {
    && 0 <= k <= |s| - |r|
    && r == s[k..k + |r|]
    && (forall i :: 0 <= i < k ==> ws(s[i]))
    && (forall i :: k + |r| <= i < |s| ==> ws(s[i]))
  }

  /**
   * `s.trim()`: a contiguous piece of `s` with no removable character at
   * either end, everything cut away being removable.
   */
  function Trim(ws: char -> bool, s: string): (r: string)
    ensures IsTrimmed(ws, r)
    ensures exists k :: CutAt(ws, s, r, k)
  {
    var k := LeadingRun(ws, s);
    var front := s[k..];
    var r := front[..|front| - TrailingRun(ws, front)];
    assert r == s[k..k + |r|];
    forall i | k + |r| <= i < |s|
      ensures ws(s[i])
    {
      assert s[i] == front[i - k];
    }
    assert CutAt(ws, s, r, k);
    r
  }

  /** Trimming a trimmed string changes nothing; in particular trimming twice is trimming once. */
  lemma TrimFixesTrimmed(ws: char -> bool, s: string)
    requires IsTrimmed(ws, s)
    ensures Trim(ws, s) == s
  {
  }

  lemma TrimIdempotent(ws: char -> bool, s: string)
    ensures Trim(ws, Trim(ws, s)) == Trim(ws, s)
  {
    TrimFixesTrimmed(ws, Trim(ws, s));
  }
}

=== FILE: user_dashboard.dfy ===
/**
 * The user dashboard: the profile and NKey schemas, the NKey request its
 * handler builds from the comma-separated app list, and the defaults it
 * shows before the user record has loaded.
 */
module UserDashboard {
  import opened Wrappers
  import opened JsValues
  import opened ApiTypes
  import opened Validation
  import opened Text
  import Permissions
  import PermissionGuard
  import RegisterPage

  datatype ProfileForm = ProfileForm(phone: string, pushdeerToken: Option<string>)

  /** `updateProfileSchema`: only the phone is checked. */
  function ValidateProfile(f: ProfileForm): (issues: seq<Issue>)
    ensures issues == [] <==> |f.phone| >= 10
    ensures Flagged(issues) <= {"phone"}
  {
    CheckField("phone", f.phone, PhoneRule)
  }

  /** `onUpdateProfile` sends the form as it is: here the PushDeer token is not normalised. */
  function ProfileRequest(f: ProfileForm): (r: UpdateUserRequest)
    ensures r.phone == Some(f.phone) && r.pushdeerToken == f.pushdeerToken
  {
    UpdateUserRequest(Some(f.phone), f.pushdeerToken)
  }

  /**
   * The profile request carries the form back unchanged, so its phone is
   * valid exactly when the form is, and it judges the phone as the
   * registration schema does. Unlike registration, an absent PushDeer
   * token stays absent instead of being sent as ''.
   */
  lemma ProfileRequestMeaning(f: ProfileForm, reg: RegisterPage.RegisterForm)
    ensures ProfileRequest(f).phone.Some?
    ensures ProfileForm(ProfileRequest(f).phone.value, ProfileRequest(f).pushdeerToken) == f
    ensures ValidateProfile(f) == [] <==> |ProfileRequest(f).phone.value| >= 10
    ensures reg.phone == f.phone ==>
      ("phone" in Flagged(ValidateProfile(f)) <==> "phone" in Flagged(RegisterPage.ValidateRegister(reg)))
    ensures f.pushdeerToken.None? ==> ProfileRequest(f).pushdeerToken.None?
    ensures reg.pushdeerToken.None? ==> RegisterPage.RegisterPayload(reg).pushdeerToken == ""
  {
    RegisterPage.RegisterFlags(reg);
  }

  datatype NKeyForm = NKeyForm(username: string, appIds: string)

  const NKeyUsernameRule := MinLength(1, "Username is required")
  const AppIdsRule := MinLength(1, "At least one app must be selected")

  /** `generateNKeySchema`: both fields must be non-empty. */
  function ValidateNKey(f: NKeyForm): (issues: seq<Issue>)
    ensures issues == [] <==> f.username != "" && f.appIds != ""
    ensures "username" in Flagged(issues) <==> f.username == ""
    ensures "app_ids" in Flagged(issues) <==> f.appIds == ""
  {
    var a := CheckField("username", f.username, NKeyUsernameRule);
    var b := CheckField("app_ids", f.appIds, AppIdsRule);
    FlaggedConcat(a, b);
    a + b
  }

  /** `app_ids.split(',').map(id => id.trim())`. */
  function AppIds(ws: char -> bool, text: string): (ids: seq<string>)
    ensures |ids| == Count(text, ',') + 1
    ensures forall i :: 0 <= i < |ids| ==> ids[i] == Trim(ws, Split(text, ',')[i])
    ensures forall i :: 0 <= i < |ids| ==> IsTrimmed(ws, ids[i])
  {
    var pieces := Split(text, ',');
    seq(|pieces|, i requires 0 <= i < |pieces| => Trim(ws, pieces[i]))
  }

  /** `onGenerateNKey`: the username as a one-element list, and the trimmed app ids. */
  function NKeyPayload(ws: char -> bool, f: NKeyForm): (r: GenerateNKeyRequest)
    ensures r.username == [f.username]
    ensures r.appIds == AppIds(ws, f.appIds)
  {
    GenerateNKeyRequest([f.username], AppIds(ws, f.appIds))
  }

  /**
   * Round trip: app ids that carry no comma and no surrounding whitespace,
   * typed joined by commas, come back as the same list.
   */
  lemma AppIdsRoundTrip(ws: char -> bool, ids: seq<string>)
    requires |ids| > 0
    requires forall i :: 0 <= i < |ids| ==> ',' !in ids[i] && IsTrimmed(ws, ids[i])
    ensures AppIds(ws, Join(ids, ',')) == ids
  {
    SplitJoin(ids, ',');
    forall i | 0 <= i < |ids|
      ensures Trim(ws, ids[i]) == ids[i]
    {
      TrimFixesTrimmed(ws, ids[i]);
    }
  }

  /** Empty pieces are kept: two adjacent commas give an empty id between them. */
  lemma EmptyPiecesKept(ws: char -> bool)
    ensures |AppIds(ws, "a,,b")| == 3
    ensures AppIds(ws, "a,,b")[1] == ""
  {
    assert Count("a,,b", ',') == 2;
    var pieces := Split("a,,b", ',');
    assert Split("b", ',') == ["b"] by { NoSeparatorSplit("b", ','); }
    assert Split(",b", ',') == ["", "b"] by { SplitSeparatorFirst("b", ','); }
    assert Split(",,b", ',') == ["", "", "b"] by { SplitSeparatorFirst(",b", ','); }
    assert pieces[1] == "";
  }

  /** The badge's level: the user's status, or 'disableduser' while no user (or an empty status) is loaded. */
  function BadgeLevel(user: Option<User>): (l: Permissions.Level)
    ensures user.None? ==> l == Permissions.DisabledUser
    ensures user.Some? && user.value.status != "" ==> Permissions.Key(l) == user.value.status
    ensures user.Some? && user.value.status == "" ==> l == Permissions.DisabledUser
  {
    var status := if user.Some? then Some(user.value.status) else None;
    Permissions.Parse(OrString(status, "disableduser"))
  }

  /** Before the user has loaded, the badge reads 'Disabled User' in red. */
  lemma BadgeBeforeLoad()
    ensures PermissionGuard.Badge(BadgeLevel(None), "").text == "Disabled User"
    ensures Permissions.DisplayColor(BadgeLevel(None)) == "red"
  {
  }

  /** A loaded user whose status is the backend's 'disabled' gets the 'Unknown' badge. */
  lemma DisabledStatusBadge(u: User)
    requires u.status == "disabled"
    ensures PermissionGuard.Badge(BadgeLevel(Some(u)), "").text == "Unknown"
  {
  }

  /** The form defaults taken from the loaded user, '' when absent. */
  function ProfileDefaults(user: Option<User>): (f: ProfileForm)
    ensures user.None? ==> f == ProfileForm("", Some(""))
    ensures user.Some? ==> f.phone == user.value.phone && f.pushdeerToken == Some(user.value.pushdeerToken)
  {
    var phone := if user.Some? then Some(user.value.phone) else None;
    var token := if user.Some? then Some(user.value.pushdeerToken) else None;
    ProfileForm(OrString(phone, ""), Some(OrString(token, "")))
  }

  /** The NKey form's default username: the loaded user's, '' when absent. */
  function NKeyDefaultUsername(user: Option<User>): (name: string)
    ensures user.None? ==> name == ""
    ensures user.Some? ==> name == user.value.username
  {
    var name := if user.Some? then Some(user.value.username) else None;
    OrString(name, "")
  }
}

=== FILE: validation.dfy ===
/**
 * The zod checks the forms declare, and how a schema reports: every field
 * is checked, and each failing field contributes one issue naming the
 * field and the check it failed. A form is submitted only when there are
 * no issues.
 */
module Validation {

  /** `.min(n, message)` on a string (length at least `n`), or `z.enum(options)`. */
  datatype Check = MinLength(n: nat, message: string) | OneOf(options: seq<string>)

  datatype Issue = Issue(field: string, check: Check)

  predicate Passes(value: string, c: Check) {
    match c
    case MinLength(n, _) => |value| >= n
    case OneOf(options) => value in options
  }

  /** One field against its check: no issue when it passes, else exactly one naming the field. */
  function CheckField(field: string, value: string, c: Check): (issues: seq<Issue>)
    ensures issues == [] <==> Passes(value, c)
    ensures forall i :: i in issues ==> i == Issue(field, c)
    ensures Flagged(issues) == if Passes(value, c) then {} else {field}
  {
    if Passes(value, c) then []
    else
      assert [Issue(field, c)][1..] == [];
      [Issue(field, c)]
  }

  /** The fields a list of issues complains about. */
  function Flagged(issues: seq<Issue>): set<string> {
    if |issues| == 0 then {} else {issues[0].field} + Flagged(issues[1..])
  }

  /** A field is flagged exactly when some issue names it. */
  lemma {:induction false} FlaggedNamesIssues(issues: seq<Issue>, field: string)
    ensures field in Flagged(issues) <==> exists k :: 0 <= k < |issues| && issues[k].field == field
  {
    if |issues| > 0 {
      FlaggedNamesIssues(issues[1..], field);
      if field in Flagged(issues[1..]) {
        var k :| 1 <= k + 1 < |issues| && issues[1..][k].field == field;
        assert issues[k + 1].field == field;
      }
      if field != issues[0].field && exists k :: 0 <= k < |issues| && issues[k].field == field {
        var k :| 0 <= k < |issues| && issues[k].field == field;
        assert issues[1..][k - 1].field == field;
      }
    }
  }

  lemma {:induction false} FlaggedConcat(a: seq<Issue>, b: seq<Issue>)
    ensures Flagged(a + b) == Flagged(a) + Flagged(b)
  {
    if |a| == 0 {
      assert a + b == b;
    } else {
      FlaggedConcat(a[1..], b);
      assert (a + b)[0] == a[0];
      assert (a + b)[1..] == a[1..] + b;
    }
  }

  /** The rules the registration and create-user schemas share. */
  const UsernameRule := MinLength(3, "Username must be at least 3 characters")
  const PasswordRule := MinLength(6, "Password must be at least 6 characters")
  /** Every schema that asks for a phone number uses this rule. */
  const PhoneRule := MinLength(10, "Phone number is required")
}

=== FILE: wrappers.dfy ===
/** Optional values: JavaScript's `undefined`/`null` versus a present value. */
module Wrappers {

  datatype Option<+T> = None | Some(value: T) {

    /** The value if present, otherwise `default`. */
    function GetOr(default: T): T {
      match this
      case Some(v) => v
      case None => default
    }
  }
}
